=== FILE: README.md ===
# Stock-trading simulator engine in Dafny

This project models the in-memory market engine of a stock-trading simulator, plus two small pure pieces of its web front end. The engine is `marketSimulator.js`. It keeps:

- a table of stocks;
- one order book per symbol, with a `buy` array and a `sell` array;
- a short price history per symbol;
- a transaction log;
- a record of market parameters, including a drifting market sentiment.

Each model is a function, or a method that touches no heap, over immutable datatypes. The engine's mutations become functions from the old state to the new one.

| file | module | what it models |
|---|---|---|
| `wrappers.dfy` | `Wrappers` | `Option`, `Result`, the `Num` of a division that may be infinite or NaN, and `Min`/`Max` on reals |
| `stable_sort.dfy` | `StableSort` | JavaScript's stable `Array.prototype.sort`, as an insertion sort on a real-valued rank, proved sorted, a permutation, stable and unique |
| `market_state.dfy` | `MarketState` | `marketState` and `MARKET_PARAMS`: orders, books, transactions, stocks, parameters |
| `matching.dfy` | `Matching` | `processOrders`: the sort, the single fill per symbol per pass, the fold over the symbols, and the corrected drain-until-uncrossed pass |
| `pricing.dfy` | `Pricing` | the bookkeeping of `updateStockPrices`: clamp, change, high/low, history buffer, order imbalance, sentiment |
| `intake.dfy` | `Intake` | the market API's `placeOrder`, `getOrderBook` and `getStockHistory` |
| `legacy_matching.dfy` | `LegacyMatching` | the older synchronous `placeOrder` on the simple `stocks` table, as written and corrected |
| `depth.dfy` | `Depth` | `aggregateOrdersByPrice`, the spread and the bar scale of `src/components/trading/OrderBook.tsx` |
| `trade_api.dfy` | `TradeApi` | the validation chain of the `src/pages/api/trade.ts` route, up to the forwarding call |

Modelling choices:

- Engine prices and quantities are `real`. The random draws, the five-factor sum of the pricing tick, the `uuidv4()` ids and `new Date()` are all parameters. So every fact proved about a tick holds for any value of that sum.
  - `ProcessOrders` takes `freshId: string -> string`, keyed by symbol. At most one trade happens per symbol per pass, so a key per symbol is enough.
  - The corrected `MatchAll` takes `freshId: nat -> string`, keyed by the trade's position in the pass.
- `Object.keys(marketState.orderBook)` is the sequence `bookKeys`. `ValidMarket` says it lists every book exactly once, and that every stock has a price history.
- JavaScript's `sort((a, b) => b.price - a.price)` is `Sort(s, o => -o.price)`. It is stable since ECMAScript 2019, and `StableSortUnique` shows that the insertion sort here is the only stable sort.
- The depth view works in integer cents, so the rounding `toFixed(2)` at line 24 of `OrderBook.tsx` changes nothing.

## Model

| member | source | states |
|---|---|---|
| `StableSort.SortSorted` | marketSimulator.js:228-232 | the sorted side is ordered by its rank, so buys end up best price first and sells lowest first |
| `StableSort.SortStable` | marketSimulator.js:228-232 | orders of equal price keep their arrival order: for every rank, the subsequence of that rank is unchanged by the sort |
| `StableSort.StableSortUnique` | marketSimulator.js:228-232 | two sorted sequences that agree on the subsequence of every rank are equal, so the model sort is the one stable sort JavaScript performs |
| `StableSort.SortStrict` | src/components/trading/OrderBook.tsx:35-38 | sorting elements of pairwise different ranks gives a strictly increasing sequence |
| `StableSort.StrictlySortedUnique` | src/components/trading/OrderBook.tsx:30-38 | two strictly ordered sequences holding the same elements are equal |
| `Matching.TotalSort` | marketSimulator.js:228-232 | sorting a side leaves its total quantity unchanged |
| `Matching.SortBook` | marketSimulator.js:228-232 | after the sort, bids are non-increasing and asks non-decreasing by price; each side is a permutation of what it was; equal prices keep their order; the totals are unchanged |
| `Matching.TakeFront` | marketSimulator.js:264-278 | trading `q` off the front order lowers the side's total by `q`, pops the front exactly when it reaches zero, leaves the rest untouched and keeps the side ordered |
| `Matching.Fill` | marketSimulator.js:242-288 | one crossing makes one trade at the midpoint, so ask <= price <= bid, for the smaller of the two front quantities; both fronts lose that quantity and are popped at zero; volume grows by it and the last price becomes the trade price, nothing else on the stock changes |
| `Matching.MatchOnce` | marketSimulator.js:228-296 | a symbol's turn leaves both sides ordered and trades at most once; it trades exactly when the sorted book is crossed at the top, and otherwise leaves the stock alone and the book merely sorted |
| `Matching.MatchOnceTradesIffSomePairCrosses` | marketSimulator.js:228-242 | a symbol trades in a pass exactly when some bid's price is at or above some ask's price, wherever the two sit in the unsorted arrays |
| `Matching.MatchOnceConservesShares` | marketSimulator.js:247-278 | the traded quantity leaves each side exactly once and is added to the volume |
| `Matching.SymbolPassFill` | marketSimulator.js:250-262 | a symbol's turn logs at most one trade, and that trade names the symbol |
| `Matching.ProcessSymbols` | marketSimulator.js:222-296 | the fold over the symbols keeps the key sets, the history and the parameters, and appends to the log exactly the trades of every symbol's turn computed from the starting state |
| `Matching.ProcessSymbolsFrame` | marketSimulator.js:222-226 | a symbol not visited keeps its book and its stock |
| `Matching.ProcessSymbolsPass` | marketSimulator.js:222-296 | a visited symbol ends with the book and stock of its own turn over the starting state, so no symbol's turn sees another's changes |
| `Matching.ProcessOrders` | marketSimulator.js:221-297 | a pass keeps the market well formed, visits every book, skips a book without a stock (line 226), and appends one trade per trading symbol in key order |
| `Matching.NewFillsSymbols` | marketSimulator.js:221-297 | a pass appends no more trades than there are books, and each one names a visited symbol |
| `Matching.OneTradePerSymbol` | marketSimulator.js:236-288 | the trades of one pass belong to pairwise different symbols: at most one fill per symbol per pass, because of the `return` at line 288 |
| `Matching.OnePassLeavesBookCrossed` | marketSimulator.js:236-288 | a bid of 10 at 101 against asks of 6 at 99 and 4 at 100 trades 6 at 100 and leaves the book still crossed |
| `Matching.MatchAll` | marketSimulator.js:234-293 | crossing the top of book until it no longer crosses leaves an ordered, uncrossed book; the volume grows by the traded total, and each side's total falls by it; the last price is the last trade's |
| `Matching.MatchSymbol` | marketSimulator.js:228-293 | the corrected turn trades exactly when some bid reaches some ask, and leaves an ordered, uncrossed book |
| `Pricing.ClampPrice` | marketSimulator.js:193-198 | for a positive old price the new price is within 10% of it and positive; it reaches 0.01 only when 1.1 times the old price does; a move already within bounds is kept unchanged; a rise past the band stops at 1.1 times the old price; a fall below the band or the floor stops at the higher of 0.9 times the old price and 0.01, capped by 1.1 times the old price |
| `Pricing.PushHistory` | marketSimulator.js:208-212 | the new price is the last entry, the history grows by one up to 100 entries and then holds at 100, and it is a window onto everything pushed |
| `Pricing.PercentChange` | marketSimulator.js:203 | the percentage times the previous close is 100 times the change; a zero previous close gives a non-finite value |
| `Pricing.TickStock` | marketSimulator.js:193-212 | a tick sets the clamped price, the change from the previous close and its percentage; the high and low widen to include the new price; the identity, open, previous close and volume stay; the history gets the new price |
| `Pricing.OrderImbalance` | marketSimulator.js:172-178 | the imbalance lies in [-1, 1], has the sign of buys minus sells, is 0 for an empty book, and times the order count equals buys minus sells |
| `Pricing.BookImbalance` | marketSimulator.js:172-178 | the ratio is the order imbalance of the symbol's book, with a missing book counted as an empty one, and it stays in [-1, 1] |
| `Pricing.NextSentiment` | marketSimulator.js:215-217 | the new sentiment is the random step when that stays in [-1, 1], and the nearer bound otherwise |
| `Pricing.UpdateStockPrices` | marketSimulator.js:144-218 | every stock ticks on its own factor and history; books, keys, trades and every parameter except the sentiment are untouched; the sentiment takes exactly one clamped random step, so it stays in [-1, 1] |
| `Pricing.TickKeepsMarketBounded` | marketSimulator.js:193-212 | after a tick every price is still positive and within 10% of its old value, and every history is within capacity and ends in its stock's price |
| `Pricing.SentimentStaysBounded` | marketSimulator.js:215-217 | over any number of ticks the sentiment stays in [-1, 1] |
| `Intake.GetOrderBook` | marketSimulator.js:514-516 | an unknown symbol reads as an empty book |
| `Intake.GetStockHistory` | marketSimulator.js:519-521 | an unknown symbol reads as an empty history |
| `Intake.PlaceOrder` | marketSimulator.js:524-558 | a missing symbol or a missing or non-positive quantity is rejected first, then an unknown symbol; a rejection changes nothing; an accepted order returns its id; a type other than buy or sell fails after creating an empty book; a book created for the symbol has its key listed last, which fixes its place in the next pass's trades |
| `Intake.PlaceOrderAppendsOnly` | marketSimulator.js:533-550 | an accepted order is appended, `Active` and with the defaults for user and price, to the end of its side; no other book, stock, history, trade or parameter changes, and the book keys change only by a new symbol's key going last |
| `LegacyMatching.Sweep` | marketSimulator.js:384-398 | the filter as written makes exactly one match per crossing resting order, however much the incoming order asked for, and every resting order is matched, kept, or both |
| `LegacyMatching.SweepMatchesEveryCrossing` | marketSimulator.js:384-398 | each crossing resting order, in book order, gives one match at its own price for the smaller of the incoming and resting quantities, and the incoming quantity is never reduced |
| `LegacyMatching.SweepKeepsTheRest` | marketSimulator.js:384-398 | resting orders that do not cross stay; a crossing order stays only with its positive remainder |
| `LegacyMatching.SweepKeepsInOrder` | marketSimulator.js:384-398 | the opposite side after the sweep is exactly the book with each crossing order reduced by line 389, less the orders reduced to nothing: survivors keep their book order, and nothing else is kept |
| `LegacyMatching.SweepConservesResting` | marketSimulator.js:389-395 | every matched share comes out of the resting side |
| `LegacyMatching.NoSideNoMatches` | marketSimulator.js:380-388 | an order of another type crosses nothing |
| `LegacyMatching.LegacyPlaceOrder` | marketSimulator.js:374-407 | an unknown symbol throws; another type throws once there is something to push; the opposite side keeps what the sweep kept; if less than the quantity matched, the order is pushed with its original quantity and its side re-sorted; another type with nothing to push matches nothing and changes no book |
| `LegacyMatching.LegacyOverfills` | marketSimulator.js:389-402 | a buy of 10 matches 20 shares against two asks of 10, and a buy of 10 filled 4 still rests with 10 |
| `LegacyMatching.SweepFixedBounded` | marketSimulator.js:384-398 | the corrected sweep matches between 0 and the incoming quantity |
| `LegacyMatching.SweepFixedConserves` | marketSimulator.js:389-395 | the corrected sweep conserves the resting shares and leaves only positive orders |
| `LegacyMatching.SweepFixedKeeps` | marketSimulator.js:384-398 | the corrected sweep keeps every order that does not cross |
| `LegacyMatching.SweepFixedAtRestingPrice` | marketSimulator.js:384-391 | every match of the corrected sweep is with a crossing resting order, at that order's price |
| `LegacyMatching.SweepFixedExhausts` | marketSimulator.js:384-401 | when the corrected sweep falls short of the quantity, no crossing order is left |
| `LegacyMatching.LegacyPlaceOrderFixedConserves` | marketSimulator.js:400-404 | the corrected order reports exactly the corrected sweep's matches and leaves the opposite side as that sweep left it; it matches at most its quantity and rests exactly the unfilled remainder, with its side re-sorted; after a short fill nothing on the opposite side crosses it; no other stock changes |
| `Depth.AggregateOrdersByPrice` | src/components/trading/OrderBook.tsx:16-42 | no orders give no levels; otherwise the result is the full sorted aggregation cut by `slice(0, maxDepth)` |
| `Depth.GroupByPrice` | src/components/trading/OrderBook.tsx:23-27 | the grouping record has one key per distinct price, and holds the summed quantity at that price |
| `Depth.FirstPricesMembers` | src/components/trading/OrderBook.tsx:23-30 | the record's keys are exactly the prices some order has |
| `Depth.FullDepthLevels` | src/components/trading/OrderBook.tsx:22-33 | there is one level per distinct price; each level's quantity is the sum at its price, and its total is price times quantity |
| `Depth.FullDepthCovers` | src/components/trading/OrderBook.tsx:22-33 | every order's price has a level |
| `Depth.FullDepthOrdered` | src/components/trading/OrderBook.tsx:35-38 | levels are strictly ascending when the first order is a sell and strictly descending otherwise, so prices are distinct |
| `Depth.FullDepthUnique` | src/components/trading/OrderBook.tsx:30-38 | any listing of the same levels in display order is the full depth, so the key order of the record does not matter |
| `Depth.JsSliceTo` | src/components/trading/OrderBook.tsx:41 | the cut is a prefix, of length `maxDepth` capped by the length, with a negative `maxDepth` counting from the end |
| `Depth.Spread` | src/components/trading/OrderBook.tsx:48-51 | spread is lowest ask minus highest bid, with an empty side read as 0; the percentage is 0 for a zero bid, and otherwise times the bid gives 100 times the spread |
| `Depth.SpreadOfSettledBook` | src/components/trading/OrderBook.tsx:48-51 | on an ordered, uncrossed book the spread is positive, the shown bid is the highest buy price and the shown ask the lowest sell price |
| `Depth.MaxVolume` | src/components/trading/OrderBook.tsx:58-59 | the bar scale is at least 1 and at least every level's quantity, and it is 1 or some level's quantity |
| `TradeApi.CheckBody` | src/pages/api/trade.ts:23-37 | a body passes exactly when its symbol is non-empty, its type is buy or sell and quantity and price are positive; 'Missing required fields' exactly when a field is falsy; 'Invalid order type' exactly when every field is present and the type is neither buy nor sell; 'Quantity must be positive' and 'Price must be positive' exactly when the first failing check is that number's sign |
| `TradeApi.Handle` | src/pages/api/trade.ts:8-50 | 405 exactly for a non-POST, 401 exactly for a POST without a session, 500 for a body that cannot be destructured; a zero quantity or price reads as missing, so 'must be positive' is said only of a negative number; a body the checks reject gets 400 with that check's message; 'User ID not found in session' exactly when the body passes and the session has no user id; a forwarded order is well formed |
| `TradeApi.ForwardsExactlyAcceptable` | src/pages/api/trade.ts:8-63 | the route forwards exactly the requests that pass every check, with the body's fields and the session's user id unchanged |

## Left out

- Persistence through Prisma, the timers, socket.io and `server.js` are left out because they are I/O. So are `persistTransaction`, the emits after a pass, and the `fetch` of the trade route with its relaying of the intake's answer.
- The five pricing factors are left out because they are random, float-heavy formulas: the random walk, momentum, sentiment effect, order effect and volume factor of lines 154-190. Their sum is the parameter `factor`; only the order-imbalance ratio is modelled on its own.
- Floating point is left out because `real` is exact: rounding, `NaN` and infinities from other sources, and `toFixed`/`toLocaleString` formatting. `Num` models the one non-finite value among the modelled outputs, `changePercent` over a zero previous close. A NaN combined factor is not modelled, because `factor` is a real. Such a factor can reach the price: for example, momentum divides by a history entry that is 0, and a zero price is reachable because intake accepts a negative limit price.
- JavaScript's coercions are left out because they depend on values outside the model: a string quantity compared with `<=`, or a non-string `type`. Request fields are optional numbers and strings.
- The error messages and the success message of intake `placeOrder` are left out as text; only which error is raised is modelled.
- `Object.keys` puts integer-like keys first in ascending order. That is left out because symbols are not numeric, and the depth view's record keys are sorted before display anyway (see `Depth.FullDepthUnique`).
- `getStockData`, `getAllStockData`, `getMarketParams`, `setMarketParams` and the legacy `getOrderBook`/`getStockHistory` are left out because they only read or overwrite fields.
- The legacy `simulateStockPrices` (lines 357-371) is left out. It is a `setInterval` timer that moves each legacy price by a random step, floors it at 1, keeps a 100-entry history and emits on a socket. That is timer, randomness and socket plumbing around the simple `stocks` table, which only the legacy `placeOrder` otherwise uses.
- The starting values of `MARKET_PARAMS` (lines 21-31) are left out; the parameters are an input of every operation.
- Order `status` transitions are left out because the engine never changes a status.
- Properties inherited from `Object.prototype` are left out; the model's maps hold only the symbols put in them. In the source a symbol such as `constructor` or `toString` finds an inherited member in a plain-object lookup:
  - intake `placeOrder` gets past the stock check at line 529, creates no book at line 546, and throws a `TypeError` at line 550, where the model answers `InvalidStockSymbol`;
  - `getOrderBook` (line 515) and `getStockHistory` (line 520) return that member instead of an empty book or history;
  - the legacy `placeOrder` throws a `TypeError` at line 384 instead of 'not found' at line 377.
- A pass stamps every trade with one time `now`, while line 257 calls `new Date()` per trade. No property depends on the difference.
- `Matching.ProcessOrders`: the source returns `undefined`; the model returns the new market instead. The caller at lines 472-476 therefore never emits a transaction. The emit is socket I/O.

## Findings

| source | as written | input that shows it | evidently intended | confidence | as-written member | corrected member |
|---|---|---|---|---|---|---|
| marketSimulator.js:384-404 | each crossing resting order matches `min(quantity, resting)` with the incoming `quantity` never reduced; the remainder test compares the matched total with `quantity`, and the pushed order keeps the original `quantity` | buy 10 at 100 against asks 10 at 99 and 10 at 100 matches 20 shares; buy 10 at 100 against one ask of 4 at 99 matches 4 and still rests 10 | each match takes at most what is still unfilled, and only the unfilled remainder rests | high; not executed | `LegacyMatching.LegacyOverfills` | `LegacyMatching.LegacyPlaceOrderFixedConserves` |
| marketSimulator.js:236-288 | `return transaction` inside the `while` loop leaves the `forEach` callback after the first trade, so the loop meant to "match orders while possible" trades at most once per symbol per pass | bid 10 at 101, asks 6 at 99 and 4 at 100: one pass trades 6 at 100 and leaves bid 4 at 101 crossing ask 4 at 100 | keep crossing the top of book until it no longer crosses | medium; not executed | `Matching.OnePassLeavesBookCrossed` | `Matching.MatchSymbol` |

The main model, `Matching.ProcessOrders`, keeps the as-written single fill per symbol, because that is what the engine does on every timer tick. The corrected `Matching.MatchAll` and `Matching.MatchSymbol` stand beside it. Likewise `LegacyMatching.LegacyPlaceOrder` is the code as written, and `LegacyMatching.LegacyPlaceOrderFixed` is the correction.

=== FILE: depth.dfy ===
/**
  The order-book depth view of src/components/trading/OrderBook.tsx: orders
  grouped into price levels, sorted and cut to a maximum depth, plus the
  spread and the volume scale of the bars. Prices are integer cents, so the
  rounding to two decimals on line 24 changes nothing.
*/
module Depth {
  import opened Wrappers
  import opened StableSort
  import opened MarketState

  /** An order as the component receives it, priced in cents. */
  datatype Entry = Entry(price: int, quantity: real, side: Side)

  /** One row of the depth view; `total` is price times quantity, in cents. */
  datatype Level = Level(price: int, quantity: real, total: real)

  /** The quantity resting at price `p`. */
  function SumAt(orders: seq<Entry>, p: int): real {
    if |orders| == 0 then 0.0
    else
      var last := orders[|orders| - 1];
      SumAt(orders[..|orders| - 1], p) + (if last.price == p then last.quantity else 0.0)
  }

  /** No order at price `p` means nothing rests there. */
  lemma {:induction false} SumAtAbsent(orders: seq<Entry>, p: int)
    requires p !in FirstPrices(orders)
    ensures SumAt(orders, p) == 0.0
    decreases |orders|
  {
    if |orders| > 0 {
      var init := orders[..|orders| - 1];
      SumAtAbsent(init, p);
    }
  }

  /** The distinct prices of `orders`, in the order they first appear. */
  function FirstPrices(orders: seq<Entry>): (r: seq<int>)
    ensures forall i, j :: 0 <= i < j < |r| ==> r[i] != r[j]
  {
    if |orders| == 0 then []
    else
      var k := FirstPrices(orders[..|orders| - 1]);
      if orders[|orders| - 1].price in k then k else k + [orders[|orders| - 1].price]
  }

  /** `FirstPrices` lists exactly the prices the orders have. */
  lemma {:induction false} FirstPricesMembers(orders: seq<Entry>, p: int)
    ensures p in FirstPrices(orders) <==> exists i :: 0 <= i < |orders| && orders[i].price == p
    decreases |orders|
  {
    if |orders| > 0 {
      var init := orders[..|orders| - 1];
      FirstPricesMembers(init, p);
      assert forall i :: 0 <= i < |init| ==> init[i] == orders[i];
      if p in FirstPrices(orders) && p !in FirstPrices(init) {
        assert orders[|orders| - 1].price == p;
      }
    }
  }

  /** The level for price `p`: the quantity resting there, and price times quantity. */
  function LevelAt(orders: seq<Entry>, p: int): Level {
    var q := SumAt(orders, p);
    Level(p, q, (p as real) * q)
  }

  /** One level per distinct price, in first-seen order. */
  function Rows(orders: seq<Entry>): (r: seq<Level>)
    ensures |r| == |FirstPrices(orders)|
  {
    var ps := FirstPrices(orders);
    seq(|ps|, i requires 0 <= i < |ps| => LevelAt(orders, ps[i]))
  }

  function AskRank(l: Level): real { l.price as real }
  function BidRank(l: Level): real { -(l.price as real) }

  /** Line 36: the levels go up when the first order is a sell, down otherwise. */
  predicate Ascending(orders: seq<Entry>) {
    |orders| > 0 && orders[0].side == Sell
  }

  /** Lines 36-38. */
  function SortLevels(rows: seq<Level>, ascending: bool): seq<Level> {
    if ascending then Sort(rows, AskRank) else Sort(rows, BidRank)
  }

  /** Every level, sorted, before the depth cut. */
  function FullDepth(orders: seq<Entry>): seq<Level> {
    SortLevels(Rows(orders), Ascending(orders))
  }

  /** `s.slice(0, end)`: a negative `end` counts back from the end. */
  function JsSliceTo<T>(s: seq<T>, end: int): (r: seq<T>)
    ensures |r| <= |s| && r == s[..|r|]
    ensures end >= 0 ==> |r| == if end < |s| then end else |s|
    ensures end < 0 ==> |r| == if |s| + end > 0 then |s| + end else 0
  {
    if end >= 0 then (if end < |s| then s[..end] else s)
    else if |s| + end > 0 then s[..|s| + end] else []
  }

  /**
    The `reduce` of lines 23-27: a record from each price to the quantity
    summed there, with its keys in first-seen order.
  */
  method GroupByPrice(orders: seq<Entry>) returns (acc: map<int, real>, keys: seq<int>)
    ensures keys == FirstPrices(orders)
    ensures forall p :: p in acc <==> p in keys
    ensures forall p :: p in acc ==> acc[p] == SumAt(orders, p)
  {
    acc := map[];
    keys := [];
    for i := 0 to |orders|
      invariant keys == FirstPrices(orders[..i])
      invariant forall p :: p in acc <==> p in keys
      invariant forall p :: p in acc ==> acc[p] == SumAt(orders[..i], p)
    {
      var o := orders[i];
      assert orders[..i + 1][..i] == orders[..i];
      assert forall p :: SumAt(orders[..i + 1], p) == SumAt(orders[..i], p) + (if o.price == p then o.quantity else 0.0);
      if o.price in acc {
        acc := acc[o.price := acc[o.price] + o.quantity];
      } else {
        SumAtAbsent(orders[..i], o.price);
        acc := acc[o.price := o.quantity];
        keys := keys + [o.price];
      }
    }
    assert orders[..|orders|] == orders;
  }

  /**
    `aggregateOrdersByPrice` (lines 16-42): the grouped quantities turned
    into levels, sorted and cut to `maxDepth`.
  */
  method AggregateOrdersByPrice(orders: seq<Entry>, maxDepth: int) returns (levels: seq<Level>)
    ensures |orders| == 0 ==> levels == []
    ensures levels == JsSliceTo(FullDepth(orders), maxDepth)
  {
    if |orders| == 0 {
      return [];
    }
    var acc, keys := GroupByPrice(orders);
    GroupedLevels(orders, acc, keys);
    var rows := LevelsOf(acc, keys);
    var sorted := SortLevels(rows, orders[0].side == Sell);
    levels := JsSliceTo(sorted, maxDepth);
  }

  /** Lines 30-34: one level per key of the grouped record, in key order. */
  function LevelsOf(acc: map<int, real>, keys: seq<int>): seq<Level>
    requires forall k :: 0 <= k < |keys| ==> keys[k] in acc
  {
    seq(|keys|, k requires 0 <= k < |keys| =>
      Level(keys[k], acc[keys[k]], (keys[k] as real) * acc[keys[k]]))
  }

  /** The levels built from `GroupByPrice`'s record are `Rows`. */
  lemma GroupedLevels(orders: seq<Entry>, acc: map<int, real>, keys: seq<int>)
    requires keys == FirstPrices(orders)
    requires forall p :: p in acc <==> p in keys
    requires forall p :: p in acc ==> acc[p] == SumAt(orders, p)
    ensures forall k :: 0 <= k < |keys| ==> keys[k] in acc
    ensures LevelsOf(acc, keys) == Rows(orders)
  {
    forall k | 0 <= k < |keys| ensures keys[k] in acc {
      assert keys[k] in keys;
    }
    var rows := LevelsOf(acc, keys);
    var want := Rows(orders);
    forall k | 0 <= k < |keys| ensures rows[k] == want[k] {
      var p := keys[k];
      assert p in keys;
      assert rows[k] == Level(p, acc[p], (p as real) * acc[p]);
      assert want[k] == LevelAt(orders, p);
    }
  }

  /**
    Every level of the full depth is the level of one of the orders' prices
    (see `LevelOf`).
  */
  lemma FullDepthLevels(orders: seq<Entry>)
    ensures |FullDepth(orders)| == |FirstPrices(orders)|
    ensures forall l :: l in FullDepth(orders) ==> LevelOf(orders, l)
  {
    var rows := Rows(orders);
    var d := FullDepth(orders);
    RowsAreLevels(orders);
    assert multiset(d) == multiset(rows);
    forall l | l in d
      ensures l in rows
    {
      assert l in multiset(d);
    }
  }

  /**
    `l` stands for a price some order has, holds the summed quantity at that
    price, and has price times quantity as its total.
  */
  ghost predicate LevelOf(orders: seq<Entry>, l: Level) {
    l.price in FirstPrices(orders) && l == LevelAt(orders, l.price)
  }

  /** Before sorting, each row is the level of its price. */
  lemma RowsAreLevels(orders: seq<Entry>)
    ensures forall l :: l in Rows(orders) ==> LevelOf(orders, l)
  {
    var rows := Rows(orders);
    var ps := FirstPrices(orders);
    forall l | l in rows
      ensures LevelOf(orders, l)
    {
      var k :| 0 <= k < |rows| && rows[k] == l;
      assert l == LevelAt(orders, ps[k]);
      assert ps[k] in ps;
    }
  }

  /** Every price some order has gets a level in the full depth. */
  lemma FullDepthCovers(orders: seq<Entry>)
    ensures forall i :: 0 <= i < |orders| ==>
      exists l :: l in FullDepth(orders) && l.price == orders[i].price
  {
    var rows := Rows(orders);
    var ps := FirstPrices(orders);
    var d := FullDepth(orders);
    assert multiset(d) == multiset(rows);
    forall i | 0 <= i < |orders|
      ensures exists l :: l in d && l.price == orders[i].price
    {
      var p := orders[i].price;
      FirstPricesMembers(orders, p);
      assert p in ps;
      var k :| 0 <= k < |ps| && ps[k] == p;
      assert rows[k] in multiset(rows);
      assert rows[k] in d;
    }
  }

  /**
    The levels are strictly ascending by price when the first order is a
    sell and strictly descending otherwise, so no price appears twice.
  */
  lemma FullDepthOrdered(orders: seq<Entry>)
    ensures var d := FullDepth(orders);
      && (Ascending(orders) ==> forall i, j :: 0 <= i < j < |d| ==> d[i].price < d[j].price)
      && (!Ascending(orders) ==> forall i, j :: 0 <= i < j < |d| ==> d[i].price > d[j].price)
  {
    var rows := Rows(orders);
    var ps := FirstPrices(orders);
    var d := FullDepth(orders);
    assert forall k :: 0 <= k < |rows| ==> rows[k].price == ps[k];
    if Ascending(orders) {
      assert DistinctRanks(rows, AskRank);
      SortStrict(rows, AskRank);
      assert forall i, j :: 0 <= i < j < |d| ==> AskRank(d[i]) < AskRank(d[j]);
    } else {
      assert DistinctRanks(rows, BidRank);
      SortStrict(rows, BidRank);
      assert forall i, j :: 0 <= i < j < |d| ==> BidRank(d[i]) < BidRank(d[j]);
    }
  }

  /**
    The full depth is the only listing of the levels in display order, so
    the order in which the grouping record enumerates its keys before the
    sort does not matter.
  */
  lemma FullDepthUnique(orders: seq<Entry>, d: seq<Level>)
    requires multiset(d) == multiset(Rows(orders))
    requires Ascending(orders) ==> forall i, j :: 0 <= i < j < |d| ==> d[i].price < d[j].price
    requires !Ascending(orders) ==> forall i, j :: 0 <= i < j < |d| ==> d[i].price > d[j].price
    ensures d == FullDepth(orders)
  {
    var full := FullDepth(orders);
    FullDepthOrdered(orders);
    if Ascending(orders) {
      assert StrictlySortedBy(d, AskRank);
      assert StrictlySortedBy(full, AskRank);
      StrictlySortedUnique(d, full, AskRank);
    } else {
      assert StrictlySortedBy(d, BidRank) by {
        forall i, j | 0 <= i < j < |d| ensures BidRank(d[i]) < BidRank(d[j]) {
          assert d[i].price > d[j].price;
        }
      }
      assert StrictlySortedBy(full, BidRank) by {
        forall i, j | 0 <= i < j < |full| ensures BidRank(full[i]) < BidRank(full[j]) {
          assert full[i].price > full[j].price;
        }
      }
      StrictlySortedUnique(d, full, BidRank);
    }
  }

  /** The spread figures of lines 48-51, all in cents except the percentage. */
  datatype SpreadInfo = SpreadInfo(highestBid: int, lowestAsk: int, spread: int, percent: real)

  /** Line 48-49: the first order's price on a side, 0 when the side is empty. */
  function TopPrice(side: seq<Entry>): int {
    if |side| > 0 then side[0].price else 0
  }

  /** Lines 48-51. */
  function Spread(buys: seq<Entry>, sells: seq<Entry>): (r: SpreadInfo)
    ensures r.highestBid == TopPrice(buys) && r.lowestAsk == TopPrice(sells)
    ensures r.spread == r.lowestAsk - r.highestBid
    ensures r.highestBid == 0 ==> r.percent == 0.0
    ensures r.highestBid != 0 ==> r.percent * (r.highestBid as real) == (r.spread as real) * 100.0
  {
    var bid := TopPrice(buys);
    var ask := TopPrice(sells);
    var spread := ask - bid;
    SpreadInfo(bid, ask, spread, if bid != 0 then (spread as real) / (bid as real) * 100.0 else 0.0)
  }

  /**
    On a book as a matching pass leaves it (bids descending, asks ascending,
    no crossing), the spread is the distance from the best bid to the best
    ask, and it is positive.
  */
  lemma SpreadOfSettledBook(buys: seq<Entry>, sells: seq<Entry>)
    requires |buys| > 0 && |sells| > 0
    requires forall i, j :: 0 <= i < j < |buys| ==> buys[i].price >= buys[j].price
    requires forall i, j :: 0 <= i < j < |sells| ==> sells[i].price <= sells[j].price
    requires buys[0].price < sells[0].price
    ensures var r := Spread(buys, sells);
      && r.spread > 0
      && (forall i :: 0 <= i < |buys| ==> buys[i].price <= r.highestBid)
      && (forall j :: 0 <= j < |sells| ==> r.lowestAsk <= sells[j].price)
  {
    var r := Spread(buys, sells);
    forall i | 0 < i < |buys| ensures buys[i].price <= r.highestBid {
      assert buys[0].price >= buys[i].price;
    }
    forall j | 0 < j < |sells| ensures r.lowestAsk <= sells[j].price {
      assert sells[0].price <= sells[j].price;
    }
  }

  /** Lines 58-59: `Math.max(...levels.map(l => l.quantity), 1)`. */
  function MaxVolume(levels: seq<Level>): (r: real)
    ensures r >= 1.0
    ensures forall l :: l in levels ==> l.quantity <= r
    ensures r == 1.0 || exists l :: l in levels && l.quantity == r
  {
    if |levels| == 0 then 1.0
    else
      var rest := MaxVolume(levels[1..]);
      assert forall l :: l in levels ==> l == levels[0] || l in levels[1..];
      Max(levels[0].quantity, rest)
  }
}

=== FILE: intake.dfy ===
/**
  The market API returned by `setupMarketSimulator` (marketSimulator.js lines
  502-570): order intake and the two read accessors. Intake only appends an
  order to its side; matching waits for the next `processOrders` pass.
*/
module Intake {
  import opened Wrappers
  import opened MarketState

  /**
    An order as a client submits it. A field the client left out is `None`;
    `side` is the raw `type` string.
  */
  datatype OrderRequest = OrderRequest(
    symbol: Option<string>,
    quantity: Option<real>,
    price: Option<real>,
    side: string,
    userId: Option<string>)

  datatype IntakeError =
    | InvalidOrderParameters  // 'Invalid order parameters'
    | InvalidStockSymbol      // 'Invalid stock symbol'
    | NoSuchSide              // the TypeError of `orderBook[symbol][type].push` for another `type`

  /** `getOrderBook` (lines 514-516): the symbol's book, or an empty one. */
  function GetOrderBook(m: Market, symbol: string): (r: Book)
    ensures symbol in m.books ==> r == m.books[symbol]
    ensures symbol !in m.books ==> r.buy == [] && r.sell == []
  {
    if symbol in m.books then m.books[symbol] else EmptyBook
  }

  /** `getStockHistory` (lines 519-521): the symbol's recent prices, or none. */
  function GetStockHistory(m: Market, symbol: string): (r: seq<real>)
    ensures symbol in m.lastPrices ==> r == m.lastPrices[symbol]
    ensures symbol !in m.lastPrices ==> r == []
  {
    if symbol in m.lastPrices then m.lastPrices[symbol] else []
  }

  /** The side of `b` that orders of `side` rest on. */
  function SideOf(b: Book, side: Side): seq<Order> {
    match side
    case Buy => b.buy
    case Sell => b.sell
  }

  function Append(b: Book, o: Order): (r: Book)
    ensures SideOf(r, o.side) == SideOf(b, o.side) + [o]
    ensures o.side == Buy ==> r.sell == b.sell
    ensures o.side == Sell ==> r.buy == b.buy
  {
    match o.side
    case Buy => b.(buy := b.buy + [o])
    case Sell => b.(sell := b.sell + [o])
  }

  /** The state after `placeOrder` and what it returned or threw. */
  datatype Placed = Placed(market: Market, outcome: Result<string, IntakeError>)

  /**
    `placeOrder` (lines 524-558). `orderId` stands for the fresh `uuidv4()`
    and `now` for `new Date()`.
  */
  function PlaceOrder(m: Market, req: OrderRequest, orderId: string, now: int): (r: Placed)
    // the parameter check comes first ...
    ensures r.outcome == Err(InvalidOrderParameters) <==>
      !TruthyString(req.symbol) || !TruthyNumber(req.quantity) || req.quantity.value <= 0.0
    // ... then the symbol must name a stock
    ensures r.outcome == Err(InvalidStockSymbol) <==>
      TruthyString(req.symbol) && req.quantity.Some? && req.quantity.value > 0.0
      && req.symbol.value !in m.stocks
    ensures r.outcome.Err? && r.outcome.error != NoSuchSide ==> r.market == m
    // a rejected side only ever leaves an empty book behind
    ensures r.outcome == Err(NoSuchSide) ==>
      && ParseSide(req.side).None?
      && r.market.stocks == m.stocks && r.market.transactions == m.transactions
      && r.market.lastPrices == m.lastPrices && r.market.params == m.params
      && (r.market.books == m.books ||
          (req.symbol.value !in m.books && r.market.books == m.books[req.symbol.value := EmptyBook]))
    ensures r.outcome.Ok? ==>
      && r.outcome.value == orderId
      && TruthyString(req.symbol) && req.quantity.Some? && req.quantity.value > 0.0
      && req.symbol.value in m.stocks && ParseSide(req.side).Some?
    // a symbol that reaches line 546 has a book afterwards; a new book's key
    // goes last in `Object.keys`, as every new string key of an object does
    ensures r.outcome.Ok? || r.outcome == Err(NoSuchSide) ==>
      && r.market.books.Keys == m.books.Keys + {req.symbol.value}
      && r.market.bookKeys ==
           if req.symbol.value in m.books then m.bookKeys else m.bookKeys + [req.symbol.value]
    ensures ValidMarket(m) ==> ValidMarket(r.market)
  {
    if !TruthyString(req.symbol) || !TruthyNumber(req.quantity) || req.quantity.value <= 0.0 then
      Placed(m, Err(InvalidOrderParameters))
    else if req.symbol.value !in m.stocks then
      Placed(m, Err(InvalidStockSymbol))
    else
      var symbol := req.symbol.value;
      var m' := if symbol in m.books then m
                else m.(books := m.books[symbol := EmptyBook], bookKeys := m.bookKeys + [symbol]);
      match ParseSide(req.side)
      case None => Placed(m', Err(NoSuchSide))
      case Some(side) =>
        var order := Order(
          orderId,
          if TruthyString(req.userId) then req.userId.value else "anonymous",
          symbol,
          req.quantity.value,
          if TruthyNumber(req.price) then req.price.value else m.stocks[symbol].price,
          side,
          Active,
          now);
        Placed(m'.(books := m'.books[symbol := Append(m'.books[symbol], order)]), Ok(orderId))
  }

  /**
    An accepted order is appended, as an `Active` order with the defaults of
    lines 536 and 539, to the end of its side of its symbol's book; nothing is
    matched, and no other order, book, stock or trade changes.
  */
  lemma PlaceOrderAppendsOnly(m: Market, req: OrderRequest, orderId: string, now: int)
    requires PlaceOrder(m, req, orderId, now).outcome.Ok?
    ensures var r := PlaceOrder(m, req, orderId, now).market;
      var symbol := req.symbol.value;
      var side := ParseSide(req.side).value;
      var before := GetOrderBook(m, symbol);
      var after := GetOrderBook(r, symbol);
      && |SideOf(after, side)| == |SideOf(before, side)| + 1
      && SideOf(after, side)[..|SideOf(before, side)|] == SideOf(before, side)
      && var o := SideOf(after, side)[|SideOf(before, side)|];
      && o == Order(orderId,
                    if TruthyString(req.userId) then req.userId.value else "anonymous",
                    symbol, req.quantity.value,
                    if TruthyNumber(req.price) then req.price.value else m.stocks[symbol].price,
                    side, Active, now)
      && (side == Buy ==> after.sell == before.sell)
      && (side == Sell ==> after.buy == before.buy)
      && (forall s :: s != symbol ==> GetOrderBook(r, s) == GetOrderBook(m, s))
      && r.stocks == m.stocks && r.transactions == m.transactions
      && r.lastPrices == m.lastPrices && r.params == m.params
      && r.books.Keys == m.books.Keys + {symbol}
      && r.bookKeys == if symbol in m.books then m.bookKeys else m.bookKeys + [symbol]
  {
    var symbol := req.symbol.value;
    var side := ParseSide(req.side).value;
    var before := GetOrderBook(m, symbol);
    var m' := if symbol in m.books then m
              else m.(books := m.books[symbol := EmptyBook], bookKeys := m.bookKeys + [symbol]);
    assert m'.books[symbol] == before;
    var order := Order(
      orderId,
      if TruthyString(req.userId) then req.userId.value else "anonymous",
      symbol,
      req.quantity.value,
      if TruthyNumber(req.price) then req.price.value else m.stocks[symbol].price,
      side,
      Active,
      now);
    var after := Append(before, order);
    var r := m'.(books := m'.books[symbol := after]);
    assert PlaceOrder(m, req, orderId, now).market == r;
    assert GetOrderBook(r, symbol) == after;
    assert SideOf(after, side) == SideOf(before, side) + [order];
    forall s | s != symbol ensures GetOrderBook(r, s) == GetOrderBook(m, s) {
    }
  }
}

=== FILE: legacy_matching.dfy ===
/**
  The older synchronous matcher of marketSimulator.js (`placeOrder`, lines
  374-407) over the simple `stocks` table of lines 34-38, whose books hold
  bare `{ price, quantity, id }` entries.
*/
module LegacyMatching {
  import opened Wrappers
  import opened StableSort
  import opened MarketState

  datatype Resting = Resting(id: string, price: real, quantity: real)

  datatype SimpleBook = SimpleBook(buy: seq<Resting>, sell: seq<Resting>)

  datatype SimpleStock = SimpleStock(price: real, history: seq<real>, book: SimpleBook)

  /** A match reported to the caller: the resting price and the matched quantity. */
  datatype Match = Match(price: real, quantity: real)

  datatype LegacyRequest = LegacyRequest(symbol: string, side: string, price: real, quantity: real)

  datatype LegacyError =
    | StockNotFound  // `Stock ${symbol} not found`
    | NoSuchSide     // the TypeError of `orderBook[type].push` for another `type`

  /** Line 386-387: a resting order the incoming one may trade with. */
  predicate Crosses(side: Option<Side>, price: real, o: Resting) {
    (side == Some(Buy) && price >= o.price) || (side == Some(Sell) && price <= o.price)
  }

  /** The crossing orders of `opp`, in book order. */
  function Crossing(side: Option<Side>, price: real, opp: seq<Resting>): (r: seq<Resting>)
    ensures |r| <= |opp|
    ensures forall o :: o in r ==> o in opp && Crosses(side, price, o)
  {
    if |opp| == 0 then []
    else (if Crosses(side, price, opp[0]) then [opp[0]] else []) + Crossing(side, price, opp[1..])
  }

  function SumMatched(ms: seq<Match>): real {
    if |ms| == 0 then 0.0 else ms[0].quantity + SumMatched(ms[1..])
  }

  function SumResting(s: seq<Resting>): real {
    if |s| == 0 then 0.0 else s[0].quantity + SumResting(s[1..])
  }

  datatype Swept = Swept(kept: seq<Resting>, matches: seq<Match>)

  /**
    The `filter` of lines 384-398 as written: every crossing order matches
    `min(quantity, its quantity)` at its own price, with the incoming
    `quantity` never reduced between matches; a crossing order is dropped
    once it reaches zero.
  */
  function Sweep(side: Option<Side>, price: real, quantity: real, opp: seq<Resting>): (r: Swept)
    ensures |r.kept| <= |opp|
    // one match per crossing order, however much the incoming order asked for
    ensures |r.matches| == |Crossing(side, price, opp)|
    // every resting order is matched, kept, or both
    ensures |opp| <= |r.kept| + |r.matches|
  {
    if |opp| == 0 then Swept([], [])
    else
      var o := opp[0];
      var rest := Sweep(side, price, quantity, opp[1..]);
      if Crosses(side, price, o) then
        var left := o.(quantity := o.quantity - Min(quantity, o.quantity));
        Swept(if left.quantity > 0.0 then [left] + rest.kept else rest.kept,
              [Match(o.price, Min(quantity, o.quantity))] + rest.matches)
      else
        Swept([o] + rest.kept, rest.matches)
  }

  /**
    Each crossing resting order, in book order, yields one match at the
    resting price for `min(quantity, resting quantity)`: the incoming
    quantity is the same for every match.
  */
  lemma {:induction false} SweepMatchesEveryCrossing(side: Option<Side>, price: real, quantity: real, opp: seq<Resting>)
    ensures var r := Sweep(side, price, quantity, opp);
      && |r.matches| == |Crossing(side, price, opp)|
      && forall i :: 0 <= i < |r.matches| ==>
           var o := Crossing(side, price, opp)[i];
           r.matches[i] == Match(o.price, Min(quantity, o.quantity))
    decreases |opp|
  {
    if |opp| > 0 {
      SweepMatchesEveryCrossing(side, price, quantity, opp[1..]);
      var r := Sweep(side, price, quantity, opp);
      var rest := Sweep(side, price, quantity, opp[1..]);
      var c := Crossing(side, price, opp);
      var c' := Crossing(side, price, opp[1..]);
      if Crosses(side, price, opp[0]) {
        assert c == [opp[0]] + c';
        assert r.matches == [Match(opp[0].price, Min(quantity, opp[0].quantity))] + rest.matches;
        forall i | 1 <= i < |r.matches|
          ensures r.matches[i] == Match(c[i].price, Min(quantity, c[i].quantity))
        {
          assert r.matches[i] == rest.matches[i - 1] && c[i] == c'[i - 1];
        }
      } else {
        assert c == c';
      }
    }
  }

  /**
    Resting orders that do not cross stay in the book unchanged; a crossing
    order stays only with what is left of it, and only if that is positive.
  */
  lemma {:induction false} SweepKeepsTheRest(side: Option<Side>, price: real, quantity: real, opp: seq<Resting>)
    ensures var r := Sweep(side, price, quantity, opp);
      && (forall o :: o in opp && !Crosses(side, price, o) ==> o in r.kept)
      && (forall o :: o in opp && Crosses(side, price, o) && o.quantity - Min(quantity, o.quantity) > 0.0 ==>
            o.(quantity := o.quantity - Min(quantity, o.quantity)) in r.kept)
      && (forall k :: k in r.kept ==> k.quantity > 0.0 || !Crosses(side, price, k))
  {
    SweepKeepsInOrder(side, price, quantity, opp);
    var r := Sweep(side, price, quantity, opp);
    var red := Reduced(side, price, quantity, opp);
    forall o | o in opp && Survives(side, price, Reduce(side, price, quantity, o))
      ensures Reduce(side, price, quantity, o) in r.kept
    {
      var i :| 0 <= i < |opp| && opp[i] == o;
      assert red[i] == Reduce(side, price, quantity, o);
    }
  }

  /** JavaScript's `filter`: the orders of `s` that satisfy `p`, in their order in `s`. */
  function Filter(s: seq<Resting>, p: Resting -> bool): (r: seq<Resting>)
    ensures forall x :: x in r <==> x in s && p(x)
  {
    if |s| == 0 then []
    else
      var rest := Filter(s[1..], p);
      assert forall x :: x in s <==> x == s[0] || x in s[1..];
      (if p(s[0]) then [s[0]] else []) + rest
  }

  /** Line 389 on one resting order: a crossing order loses `min(quantity, its quantity)`. */
  function Reduce(side: Option<Side>, price: real, quantity: real, o: Resting): Resting {
    if Crosses(side, price, o) then o.(quantity := o.quantity - Min(quantity, o.quantity)) else o
  }

  /** Every resting order after line 389, in book order, before the filter drops any. */
  function Reduced(side: Option<Side>, price: real, quantity: real, opp: seq<Resting>): (r: seq<Resting>)
    ensures |r| == |opp|
    ensures forall i :: 0 <= i < |opp| ==> r[i] == Reduce(side, price, quantity, opp[i])
  {
    seq(|opp|, i requires 0 <= i < |opp| => Reduce(side, price, quantity, opp[i]))
  }

  /** Lines 394-397: an order stays unless it crossed and has nothing left. */
  predicate Survives(side: Option<Side>, price: real, k: Resting) {
    !Crosses(side, price, k) || k.quantity > 0.0
  }

  /**
    The opposite side after the sweep is exactly the book with every crossing
    order reduced, less the orders reduced to nothing, in book order: the
    survivors keep their order and nothing else is kept.
  */
  lemma {:induction false} SweepKeepsInOrder(side: Option<Side>, price: real, quantity: real, opp: seq<Resting>)
    ensures Sweep(side, price, quantity, opp).kept ==
      Filter(Reduced(side, price, quantity, opp), k => Survives(side, price, k))
    decreases |opp|
  {
    if |opp| > 0 {
      SweepKeepsInOrder(side, price, quantity, opp[1..]);
      var red := Reduced(side, price, quantity, opp);
      assert red[1..] == Reduced(side, price, quantity, opp[1..]);
      assert red[0] == Reduce(side, price, quantity, opp[0]);
    }
  }

  lemma {:induction false} SumRestingAppend(a: seq<Resting>, b: seq<Resting>)
    ensures SumResting(a + b) == SumResting(a) + SumResting(b)
    decreases |a|
  {
    if |a| > 0 {
      assert (a + b)[1..] == a[1..] + b;
      SumRestingAppend(a[1..], b);
    } else {
      assert a + b == b;
    }
  }

  /** Every matched share comes out of the resting side: nothing is created or lost there. */
  lemma {:induction false} SweepConservesResting(side: Option<Side>, price: real, quantity: real, opp: seq<Resting>)
    ensures var r := Sweep(side, price, quantity, opp);
      SumMatched(r.matches) + SumResting(r.kept) == SumResting(opp)
    decreases |opp|
  {
    if |opp| > 0 {
      SweepConservesResting(side, price, quantity, opp[1..]);
      var rest := Sweep(side, price, quantity, opp[1..]);
      var r := Sweep(side, price, quantity, opp);
      if Crosses(side, price, opp[0]) {
        assert r.matches[1..] == rest.matches;
        SumRestingAppend([opp[0].(quantity := opp[0].quantity - Min(quantity, opp[0].quantity))], rest.kept);
      } else {
        SumRestingAppend([opp[0]], rest.kept);
      }
    }
  }

  /** An order of another `type` crosses nothing, so it matches nothing. */
  lemma {:induction false} NoSideNoMatches(price: real, quantity: real, opp: seq<Resting>)
    ensures Sweep(None, price, quantity, opp).matches == []
    ensures SumMatched(Sweep(None, price, quantity, opp).matches) == 0.0
    ensures Sweep(None, price, quantity, opp).kept == opp
    decreases |opp|
  {
    if |opp| > 0 {
      NoSideNoMatches(price, quantity, opp[1..]);
    }
  }

  function RestingBuyRank(o: Resting): real { -o.price }
  function RestingSellRank(o: Resting): real { o.price }

  function SideOf(b: SimpleBook, side: Side): seq<Resting> {
    match side
    case Buy => b.buy
    case Sell => b.sell
  }

  function WithSide(b: SimpleBook, side: Side, s: seq<Resting>): (r: SimpleBook)
    ensures SideOf(r, side) == s
    ensures side == Buy ==> r.sell == b.sell
    ensures side == Sell ==> r.buy == b.buy
  {
    match side
    case Buy => b.(buy := s)
    case Sell => b.(sell := s)
  }

  /** Line 403: re-sort a side after a push, best price first. */
  function SortSide(s: seq<Resting>, side: Side): seq<Resting> {
    match side
    case Buy => Sort(s, RestingBuyRank)
    case Sell => Sort(s, RestingSellRank)
  }

  function Opposite(side: Option<Side>): Side {
    if side == Some(Buy) then Sell else Buy
  }

  /**
    `placeOrder` as written (lines 374-407). `orderId` stands for the fresh
    `uuidv4()` of the pushed remainder.
  */
  function LegacyPlaceOrder(stocks: map<string, SimpleStock>, req: LegacyRequest, orderId: string)
    : (r: Result<(map<string, SimpleStock>, seq<Match>), LegacyError>)
    ensures req.symbol !in stocks <==> r == Err(StockNotFound)
    ensures r == Err(NoSuchSide) <==>
      req.symbol in stocks && ParseSide(req.side).None? && 0.0 < req.quantity
    // another type with nothing to push matches nothing and leaves every book as it was
    ensures r.Ok? && ParseSide(req.side).None? ==> r.value == (stocks, [])
    ensures r.Ok? ==>
      var stock := stocks[req.symbol];
      var side := ParseSide(req.side);
      var swept := Sweep(side, req.price, req.quantity, SideOf(stock.book, Opposite(side)));
      && r.value.1 == swept.matches
      && req.symbol in r.value.0
      && var book := r.value.0[req.symbol].book;
      && r.value.0 == stocks[req.symbol := stock.(book := book)]
      && SideOf(book, Opposite(side)) == swept.kept
      && (SumMatched(swept.matches) < req.quantity ==>
            side.Some? &&
            SideOf(book, side.value) ==
              SortSide(SideOf(stock.book, side.value) + [Resting(orderId, req.price, req.quantity)], side.value))
      && (SumMatched(swept.matches) >= req.quantity && side.Some? ==>
            SideOf(book, side.value) == SideOf(stock.book, side.value))
  {
    if req.symbol !in stocks then Err(StockNotFound)
    else
      var stock := stocks[req.symbol];
      var side := ParseSide(req.side);
      var opp := Opposite(side);
      var swept := Sweep(side, req.price, req.quantity, SideOf(stock.book, opp));
      var book := WithSide(stock.book, opp, swept.kept);
      NoSideNoMatches(req.price, req.quantity, SideOf(stock.book, opp));
      assert side.None? ==> book == stock.book && stocks[req.symbol := stock] == stocks;
      if SumMatched(swept.matches) < req.quantity then
        match side
        case None => Err(NoSuchSide)
        case Some(s) =>
          var pushed := SortSide(SideOf(book, s) + [Resting(orderId, req.price, req.quantity)], s);
          Ok((stocks[req.symbol := stock.(book := WithSide(book, s, pushed))], swept.matches))
      else
        Ok((stocks[req.symbol := stock.(book := book)], swept.matches))
  }

  /**
    The incoming quantity is never reduced between matches: a buy of 10 at
    100 against asks of 10 at 99 and 10 at 100 matches 20 shares, and a buy of
    10 at 100 against one ask of 4 at 99 rests with all 10 shares.
  */
  lemma LegacyOverfills()
    ensures var stocks := map["AAPL" := SimpleStock(150.0, [], SimpleBook([],
              [Resting("a1", 99.0, 10.0), Resting("a2", 100.0, 10.0)]))];
      var r := LegacyPlaceOrder(stocks, LegacyRequest("AAPL", "buy", 100.0, 10.0), "n");
      r.Ok? && SumMatched(r.value.1) == 20.0
    ensures var stocks := map["AAPL" := SimpleStock(150.0, [], SimpleBook([], [Resting("a1", 99.0, 4.0)]))];
      var r := LegacyPlaceOrder(stocks, LegacyRequest("AAPL", "buy", 100.0, 10.0), "n");
      r.Ok? && SumMatched(r.value.1) == 4.0
      && r.value.0["AAPL"].book.buy == [Resting("n", 100.0, 10.0)]
  {
    var a1, a2 := Resting("a1", 99.0, 10.0), Resting("a2", 100.0, 10.0);
    assert [a1, a2][1..] == [a2];
    assert Sweep(Some(Buy), 100.0, 10.0, [a2]).matches == [Match(100.0, 10.0)];
    assert Sweep(Some(Buy), 100.0, 10.0, [a1, a2]).matches == [Match(99.0, 10.0), Match(100.0, 10.0)];
    assert SumMatched([Match(99.0, 10.0), Match(100.0, 10.0)]) == 20.0;
    var b1 := Resting("a1", 99.0, 4.0);
    assert Sweep(Some(Buy), 100.0, 10.0, [b1]).matches == [Match(99.0, 4.0)];
    assert SumMatched([Match(99.0, 4.0)]) == 4.0;
    assert Sort([Resting("n", 100.0, 10.0)], RestingBuyRank) == [Resting("n", 100.0, 10.0)];
  }

  /** Resting quantities are positive, as every order the corrected matcher leaves behind is. */
  ghost predicate AllPositive(s: seq<Resting>) {
    forall o :: o in s ==> o.quantity > 0.0
  }

  /**
    The evidently intended sweep: each match takes at most what is still
    unfilled of the incoming order, and matching stops once nothing is left.
  */
  function SweepFixed(side: Option<Side>, price: real, remaining: real, opp: seq<Resting>): (r: Swept)
    ensures |r.kept| <= |opp|
    decreases |opp|
  {
    if |opp| == 0 then Swept([], [])
    else
      var o := opp[0];
      if remaining > 0.0 && Crosses(side, price, o) then
        var q := Min(remaining, o.quantity);
        var rest := SweepFixed(side, price, remaining - q, opp[1..]);
        var left := o.(quantity := o.quantity - q);
        Swept(if left.quantity > 0.0 then [left] + rest.kept else rest.kept, [Match(o.price, q)] + rest.matches)
      else
        var rest := SweepFixed(side, price, remaining, opp[1..]);
        Swept([o] + rest.kept, rest.matches)
  }

  /** The corrected sweep never matches more than the incoming order asks for. */
  lemma {:induction false} SweepFixedBounded(side: Option<Side>, price: real, remaining: real, opp: seq<Resting>)
    requires remaining >= 0.0 && AllPositive(opp)
    ensures var r := SweepFixed(side, price, remaining, opp);
      0.0 <= SumMatched(r.matches) <= remaining
    decreases |opp|
  {
    if |opp| > 0 {
      var o := opp[0];
      var r := SweepFixed(side, price, remaining, opp);
      assert o in opp;
      assert AllPositive(opp[1..]) by {
        assert forall x :: x in opp[1..] ==> x in opp;
      }
      if remaining > 0.0 && Crosses(side, price, o) {
        var q := Min(remaining, o.quantity);
        SweepFixedBounded(side, price, remaining - q, opp[1..]);
        var rest := SweepFixed(side, price, remaining - q, opp[1..]);
        assert r.matches[1..] == rest.matches;
      } else {
        SweepFixedBounded(side, price, remaining, opp[1..]);
      }
    }
  }

  /**
    Against a book of positive orders, the corrected sweep conserves the
    resting shares and leaves only positive orders behind.
  */
  lemma {:induction false} SweepFixedConserves(side: Option<Side>, price: real, remaining: real, opp: seq<Resting>)
    requires AllPositive(opp)
    ensures var r := SweepFixed(side, price, remaining, opp);
      && SumMatched(r.matches) + SumResting(r.kept) == SumResting(opp)
      && AllPositive(r.kept)
    decreases |opp|
  {
    if |opp| > 0 {
      var o := opp[0];
      var r := SweepFixed(side, price, remaining, opp);
      assert AllPositive(opp[1..]) by {
        assert forall x :: x in opp[1..] ==> x in opp;
      }
      if remaining > 0.0 && Crosses(side, price, o) {
        var q := Min(remaining, o.quantity);
        var left := o.(quantity := o.quantity - q);
        SweepFixedConserves(side, price, remaining - q, opp[1..]);
        var rest := SweepFixed(side, price, remaining - q, opp[1..]);
        assert r.matches[1..] == rest.matches;
        if left.quantity > 0.0 {
          SumRestingAppend([left], rest.kept);
        }
        assert forall k :: k in r.kept ==> k == left || k in rest.kept;
      } else {
        SweepFixedConserves(side, price, remaining, opp[1..]);
        var rest := SweepFixed(side, price, remaining, opp[1..]);
        SumRestingAppend([o], rest.kept);
        assert forall k :: k in r.kept ==> k == o || k in rest.kept;
      }
    }
  }

  /** The corrected sweep keeps every order that does not cross. */
  lemma {:induction false} SweepFixedKeeps(side: Option<Side>, price: real, remaining: real, opp: seq<Resting>)
    ensures var r := SweepFixed(side, price, remaining, opp);
      forall o :: o in opp && !Crosses(side, price, o) ==> o in r.kept
    decreases |opp|
  {
    if |opp| > 0 {
      var o := opp[0];
      assert forall x :: x in opp ==> x == o || x in opp[1..];
      if remaining > 0.0 && Crosses(side, price, o) {
        SweepFixedKeeps(side, price, remaining - Min(remaining, o.quantity), opp[1..]);
      } else {
        SweepFixedKeeps(side, price, remaining, opp[1..]);
      }
    }
  }

  /**
    When the corrected sweep falls short of the incoming quantity, it has
    used up every crossing order.
  */
  lemma {:induction false} SweepFixedExhausts(side: Option<Side>, price: real, remaining: real, opp: seq<Resting>)
    requires remaining >= 0.0 && AllPositive(opp)
    ensures var r := SweepFixed(side, price, remaining, opp);
      SumMatched(r.matches) < remaining ==> forall k :: k in r.kept ==> !Crosses(side, price, k)
    decreases |opp|
  {
    if |opp| > 0 {
      var o := opp[0];
      var r := SweepFixed(side, price, remaining, opp);
      assert AllPositive(opp[1..]) by {
        assert forall x :: x in opp[1..] ==> x in opp;
      }
      if remaining > 0.0 && Crosses(side, price, o) {
        var q := Min(remaining, o.quantity);
        var left := o.(quantity := o.quantity - q);
        var rest := SweepFixed(side, price, remaining - q, opp[1..]);
        SweepFixedExhausts(side, price, remaining - q, opp[1..]);
        assert r.matches[1..] == rest.matches;
        assert SumMatched(r.matches) == q + SumMatched(rest.matches);
        if left.quantity > 0.0 {
          assert q == remaining;
          SweepFixedBounded(side, price, 0.0, opp[1..]);
        } else {
          assert r.kept == rest.kept;
        }
      } else {
        var rest := SweepFixed(side, price, remaining, opp[1..]);
        SweepFixedExhausts(side, price, remaining, opp[1..]);
        if SumMatched(r.matches) < remaining {
          SweepFixedBounded(side, price, remaining, opp[1..]);
          assert r.matches == rest.matches;
          assert remaining > 0.0;
          assert forall k :: k in r.kept ==> k == o || k in rest.kept;
        }
      }
    }
  }

  /** Every match of the corrected sweep is with a crossing resting order, at that order's price. */
  lemma {:induction false} SweepFixedAtRestingPrice(side: Option<Side>, price: real, remaining: real, opp: seq<Resting>)
    ensures forall m :: m in SweepFixed(side, price, remaining, opp).matches ==>
      exists o :: o in opp && Crosses(side, price, o) && m.price == o.price
    decreases |opp|
  {
    if |opp| > 0 {
      var o := opp[0];
      var r := SweepFixed(side, price, remaining, opp);
      assert forall x :: x in opp[1..] ==> x in opp;
      if remaining > 0.0 && Crosses(side, price, o) {
        var q := Min(remaining, o.quantity);
        SweepFixedAtRestingPrice(side, price, remaining - q, opp[1..]);
        var rest := SweepFixed(side, price, remaining - q, opp[1..]);
        assert forall m :: m in r.matches ==> m == Match(o.price, q) || m in rest.matches;
      } else {
        SweepFixedAtRestingPrice(side, price, remaining, opp[1..]);
      }
    }
  }

  /**
    The evidently intended `placeOrder`: the unfilled remainder, not the
    original quantity, rests in the book.
  */
  function LegacyPlaceOrderFixed(stocks: map<string, SimpleStock>, req: LegacyRequest, orderId: string)
    : (r: Result<(map<string, SimpleStock>, seq<Match>), LegacyError>)
    ensures req.symbol !in stocks <==> r == Err(StockNotFound)
  {
    if req.symbol !in stocks then Err(StockNotFound)
    else
      var stock := stocks[req.symbol];
      var side := ParseSide(req.side);
      var opp := Opposite(side);
      var swept := SweepFixed(side, req.price, req.quantity, SideOf(stock.book, opp));
      var book := WithSide(stock.book, opp, swept.kept);
      var left := req.quantity - SumMatched(swept.matches);
      if left > 0.0 then
        match side
        case None => Err(NoSuchSide)
        case Some(s) =>
          var pushed := SortSide(SideOf(book, s) + [Resting(orderId, req.price, left)], s);
          Ok((stocks[req.symbol := stock.(book := WithSide(book, s, pushed))], swept.matches))
      else
        Ok((stocks[req.symbol := stock.(book := book)], swept.matches))
  }

  /**
    With a positive quantity and a book of positive orders, the corrected
    `placeOrder` reports the corrected sweep's matches, leaves the opposite
    side as that sweep left it, matches at most the quantity asked for and
    rests exactly the rest of it; a short fill leaves nothing on the opposite
    side that crosses, and no other stock changes.
  */
  lemma LegacyPlaceOrderFixedConserves(stocks: map<string, SimpleStock>, req: LegacyRequest, orderId: string)
    requires req.symbol in stocks && ParseSide(req.side).Some? && req.quantity > 0.0
    requires var b := stocks[req.symbol].book; AllPositive(b.buy) && AllPositive(b.sell)
    ensures var r := LegacyPlaceOrderFixed(stocks, req, orderId);
      var side := ParseSide(req.side).value;
      var before := stocks[req.symbol].book;
      && r.Ok?
      && SumMatched(r.value.1) <= req.quantity
      && var after := r.value.0[req.symbol].book;
      && (SumMatched(r.value.1) < req.quantity ==>
            SideOf(after, side) ==
              SortSide(SideOf(before, side) + [Resting(orderId, req.price, req.quantity - SumMatched(r.value.1))], side))
      && (SumMatched(r.value.1) == req.quantity ==> SideOf(after, side) == SideOf(before, side))
      && r.value.0 == stocks[req.symbol := stocks[req.symbol].(book := after)]
      && var opp := Opposite(ParseSide(req.side));
      && var swept := SweepFixed(ParseSide(req.side), req.price, req.quantity, SideOf(before, opp));
      && r.value.1 == swept.matches
      && SideOf(after, opp) == swept.kept
      && (SumMatched(r.value.1) < req.quantity ==>
            forall k :: k in SideOf(after, opp) ==> !Crosses(ParseSide(req.side), req.price, k))
  {
    var side := ParseSide(req.side);
    var s := side.value;
    var stock := stocks[req.symbol];
    var opp := Opposite(side);
    assert opp != s;
    var swept := SweepFixed(side, req.price, req.quantity, SideOf(stock.book, opp));
    SweepFixedBounded(side, req.price, req.quantity, SideOf(stock.book, opp));
    SweepFixedExhausts(side, req.price, req.quantity, SideOf(stock.book, opp));
    var book := WithSide(stock.book, opp, swept.kept);
    assert SideOf(book, s) == SideOf(stock.book, s);
    var left := req.quantity - SumMatched(swept.matches);
    if left > 0.0 {
      var pushed := SortSide(SideOf(book, s) + [Resting(orderId, req.price, left)], s);
      var after := stocks[req.symbol := stock.(book := WithSide(book, s, pushed))];
      assert LegacyPlaceOrderFixed(stocks, req, orderId) == Ok((after, swept.matches));
      assert SideOf(after[req.symbol].book, s) == pushed;
      assert SideOf(after[req.symbol].book, opp) == swept.kept;
    } else {
      var after := stocks[req.symbol := stock.(book := book)];
      assert LegacyPlaceOrderFixed(stocks, req, orderId) == Ok((after, swept.matches));
    }
  }
}

=== FILE: market_state.dfy ===
/**
  The in-memory state of the market simulator (`marketState` and `MARKET_PARAMS`
  in marketSimulator.js): stocks, one order book per symbol, the recent price
  history of each symbol, the transaction log and the market parameters.
*/
module MarketState {
  import opened Wrappers

  datatype Side = Buy | Sell

  /** The order `type` strings the engine knows; any other string names no side. */
  function ParseSide(t: string): Option<Side> {
    if t == "buy" then Some(Buy) else if t == "sell" then Some(Sell) else None
  }

  /** Every order the engine creates is `Active`; the other states are set by persistence. */
  datatype Status = Active | Executed | Cancelled

  datatype Order = Order(
    id: string,
    userId: string,
    symbol: string,
    quantity: real,
    price: real,
    side: Side,
    status: Status,
    created: int)

  /** One symbol's order book: both sides are plain arrays in the source. */
  datatype Book = Book(buy: seq<Order>, sell: seq<Order>)

  const EmptyBook := Book([], [])

  datatype Transaction = Transaction(
    id: string,
    symbol: string,
    buyOrderId: string,
    sellOrderId: string,
    price: real,
    quantity: real,
    timestamp: int,
    buyerId: string,
    sellerId: string)

  datatype Stock = Stock(
    symbol: string,
    name: string,
    price: real,
    previousClose: real,
    open: real,
    high: real,
    low: real,
    volume: real,
    change: real,
    changePercent: Num,
    lastUpdated: int)

  /** The tunable parameters, including the evolving market sentiment. */
  datatype Params = Params(
    baseVolatility: real,
    marketSentiment: real,
    tradingVolumeFactor: real,
    updateInterval: int,
    orderImpactFactor: real,
    momentumFactor: real,
    sentimentChangeRate: real,
    newsImpactFactor: real,
    randomWalkFactor: real)

  /**
    `bookKeys` is the order in which `Object.keys(marketState.orderBook)` lists
    the symbols; `lastPrices` is the per-symbol price history.
  */
  datatype Market = Market(
    stocks: map<string, Stock>,
    books: map<string, Book>,
    bookKeys: seq<string>,
    lastPrices: map<string, seq<real>>,
    transactions: seq<Transaction>,
    params: Params)

  /** No symbol occurs twice in `syms`. */
  ghost predicate Distinct(syms: seq<string>) {
    forall i, j :: 0 <= i < j < |syms| ==> syms[i] != syms[j]
  }

  /** `keys` lists every element of `domain` exactly once, as `Object.keys` does. */
  ghost predicate KeysEnumerate(keys: seq<string>, domain: set<string>) {
    && Distinct(keys)
    && (forall s :: s in keys <==> s in domain)
  }

  /**
    The shape every operation keeps: the key order of the books is an
    enumeration of their symbols, and every stock has a price history.
  */
  ghost predicate ValidMarket(m: Market) {
    && KeysEnumerate(m.bookKeys, m.books.Keys)
    && m.stocks.Keys <= m.lastPrices.Keys
  }
}

=== FILE: matching.dfy ===
/**
  The matching engine of marketSimulator.js (`processOrders`): each pass sorts
  every symbol's book and crosses the top of book at the midpoint price.
*/
module Matching {
  import opened Wrappers
  import opened StableSort
  import opened MarketState

  /** `buy.sort((a, b) => b.price - a.price)`: highest price first. */
  function BuyRank(o: Order): real { -o.price }

  /** `sell.sort((a, b) => a.price - b.price)`: lowest price first. */
  function SellRank(o: Order): real { o.price }

  ghost predicate BidsOrdered(s: seq<Order>) {
    forall i, j :: 0 <= i < j < |s| ==> s[i].price >= s[j].price
  }

  ghost predicate AsksOrdered(s: seq<Order>) {
    forall i, j :: 0 <= i < j < |s| ==> s[i].price <= s[j].price
  }

  ghost predicate BookOrdered(b: Book) {
    BidsOrdered(b.buy) && AsksOrdered(b.sell)
  }

  /** The best bid is at least the best ask. */
  predicate Crossed(b: Book) {
    |b.buy| > 0 && |b.sell| > 0 && b.buy[0].price >= b.sell[0].price
  }

  /** Sum of the quantities of `s`. */
  function Total(s: seq<Order>): real {
    if |s| == 0 then 0.0 else s[0].quantity + Total(s[1..])
  }

  lemma {:induction false} TotalAppend(a: seq<Order>, b: seq<Order>)
    ensures Total(a + b) == Total(a) + Total(b)
    decreases |a|
  {
    if |a| > 0 {
      assert (a + b)[1..] == a[1..] + b;
      TotalAppend(a[1..], b);
    } else {
      assert a + b == b;
    }
  }

  lemma {:induction false} TotalInsert(x: Order, s: seq<Order>, rank: Order -> real)
    ensures Total(Insert(x, s, rank)) == x.quantity + Total(s)
    decreases |s|
  {
    if |s| > 0 && rank(x) > rank(s[0]) {
      TotalInsert(x, s[1..], rank);
    }
  }

  /** Sorting a side does not change how many shares it holds. */
  lemma {:induction false} TotalSort(s: seq<Order>, rank: Order -> real)
    ensures Total(Sort(s, rank)) == Total(s)
    decreases |s|
  {
    if |s| > 0 {
      TotalSort(s[1..], rank);
      TotalInsert(s[0], Sort(s[1..], rank), rank);
    }
  }

  /**
    Both sorts of `processOrders`: bids by price descending, asks by price
    ascending, each a stable permutation (orders of equal price, that is of
    equal rank, keep their relative order).
  */
  function SortBook(b: Book): (r: Book)
    ensures BookOrdered(r)
    ensures multiset(r.buy) == multiset(b.buy) && multiset(r.sell) == multiset(b.sell)
    ensures forall k :: WithRank(r.buy, BuyRank, k) == WithRank(b.buy, BuyRank, k)
    ensures forall k :: WithRank(r.sell, SellRank, k) == WithRank(b.sell, SellRank, k)
    ensures Total(r.buy) == Total(b.buy) && Total(r.sell) == Total(b.sell)
  {
    SortSorted(b.buy, BuyRank);
    SortSorted(b.sell, SellRank);
    SortStableAll(b.buy, BuyRank);
    SortStableAll(b.sell, SellRank);
    TotalSort(b.buy, BuyRank);
    TotalSort(b.sell, SellRank);
    var r := Book(Sort(b.buy, BuyRank), Sort(b.sell, SellRank));
    assert BidsOrdered(r.buy) by {
      forall i, j | 0 <= i < j < |r.buy| ensures r.buy[i].price >= r.buy[j].price {
        assert BuyRank(r.buy[i]) <= BuyRank(r.buy[j]);
      }
    }
    assert AsksOrdered(r.sell) by {
      forall i, j | 0 <= i < j < |r.sell| ensures r.sell[i].price <= r.sell[j].price {
        assert SellRank(r.sell[i]) <= SellRank(r.sell[j]);
      }
    }
    r
  }

  /** The outcome of one symbol's matching step. */
  datatype Pass = Pass(book: Book, stock: Stock, fill: Option<Transaction>)

  /** Subtracts `q` from the front order and drops it if it is left with nothing. */
  function TakeFront(s: seq<Order>, q: real): (r: seq<Order>)
    requires |s| > 0
    ensures Total(r) == Total(s) - q
    ensures s[0].quantity == q ==> r == s[1..]
    ensures s[0].quantity != q ==> r == [s[0].(quantity := s[0].quantity - q)] + s[1..]
    ensures BidsOrdered(s) ==> BidsOrdered(r)
    ensures AsksOrdered(s) ==> AsksOrdered(r)
  {
    var front := s[0].(quantity := s[0].quantity - q);
    if front.quantity == 0.0 then s[1..]
    else
      var r := [front] + s[1..];
      assert r[1..] == s[1..];
      assert forall i :: 0 <= i < |r| ==> r[i].price == s[i].price;
      r
  }

  /**
    One crossing of the top of book (marketSimulator.js lines 242-288): a trade
    at the midpoint for the smaller of the two quantities, both orders reduced,
    exhausted orders dropped, volume and last price updated.
  */
  function Fill(b: Book, stock: Stock, symbol: string, txId: string, now: int): (r: Pass)
    requires Crossed(b)
    ensures r.fill.Some?
    ensures var tx, bid, ask := r.fill.value, b.buy[0], b.sell[0];
      && tx.id == txId && tx.symbol == symbol && tx.timestamp == now
      && tx.buyOrderId == bid.id && tx.sellOrderId == ask.id
      && tx.buyerId == bid.userId && tx.sellerId == ask.userId
      // the execution price is the midpoint, so it lies between ask and bid
      && tx.price - ask.price == bid.price - tx.price
      && ask.price <= tx.price <= bid.price
      // the quantity is the smaller of the two
      && tx.quantity <= bid.quantity && tx.quantity <= ask.quantity
      && (tx.quantity == bid.quantity || tx.quantity == ask.quantity)
      // the last price and the volume move, nothing else on the stock
      && r.stock == stock.(price := tx.price, volume := stock.volume + tx.quantity)
      // shares leave each side exactly once
      && Total(r.book.buy) == Total(b.buy) - tx.quantity
      && Total(r.book.sell) == Total(b.sell) - tx.quantity
      // the front order goes exactly when it reaches zero; the rest is untouched
      && (bid.quantity == tx.quantity ==> r.book.buy == b.buy[1..])
      && (bid.quantity != tx.quantity ==>
            r.book.buy == [bid.(quantity := bid.quantity - tx.quantity)] + b.buy[1..])
      && (ask.quantity == tx.quantity ==> r.book.sell == b.sell[1..])
      && (ask.quantity != tx.quantity ==>
            r.book.sell == [ask.(quantity := ask.quantity - tx.quantity)] + b.sell[1..])
    ensures |r.book.buy| + |r.book.sell| < |b.buy| + |b.sell|
    ensures BookOrdered(b) ==> BookOrdered(r.book)
  {
    var bid, ask := b.buy[0], b.sell[0];
    var price := (bid.price + ask.price) / 2.0;
    var q := Min(bid.quantity, ask.quantity);
    var tx := Transaction(txId, symbol, bid.id, ask.id, price, q, now, bid.userId, ask.userId);
    Pass(Book(TakeFront(b.buy, q), TakeFront(b.sell, q)),
         stock.(price := price, volume := stock.volume + q),
         Some(tx))
  }

  /**
    One symbol's turn in `processOrders`: sort both sides, then cross the top
    of book at most once, because the `return transaction` at line 288 leaves
    the `forEach` callback after the first trade.
  */
  function MatchOnce(b: Book, stock: Stock, symbol: string, txId: string, now: int): (r: Pass)
    ensures BookOrdered(r.book)
    ensures r.fill.Some? <==> Crossed(SortBook(b))
    ensures r.fill.None? ==> r.stock == stock && r.book == SortBook(b)
    ensures r.fill.Some? ==> r == Fill(SortBook(b), stock, symbol, txId, now)
  {
    var sorted := SortBook(b);
    if Crossed(sorted) then Fill(sorted, stock, symbol, txId, now)
    else Pass(sorted, stock, None)
  }

  /** Some bid is priced at or above some ask. */
  ghost predicate SomePairCrosses(b: Book) {
    exists i, j :: 0 <= i < |b.buy| && 0 <= j < |b.sell| && b.buy[i].price >= b.sell[j].price
  }

  /**
    A pass trades on a symbol exactly when some buy order's price reaches some
    sell order's price, wherever the two sit in the unsorted arrays.
  */
  lemma MatchOnceTradesIffSomePairCrosses(b: Book, stock: Stock, symbol: string, txId: string, now: int)
    ensures MatchOnce(b, stock, symbol, txId, now).fill.Some? <==> SomePairCrosses(b)
  {
    var sorted := SortBook(b);
    if SomePairCrosses(b) {
      var i, j :| 0 <= i < |b.buy| && 0 <= j < |b.sell| && b.buy[i].price >= b.sell[j].price;
      BestBidIsHighest(b.buy, sorted.buy, i);
      BestAskIsLowest(b.sell, sorted.sell, j);
    }
    if Crossed(sorted) {
      var i := FrontComesFrom(b.buy, sorted.buy);
      var j := FrontComesFrom(b.sell, sorted.sell);
      assert b.buy[i].price >= b.sell[j].price;
    }
  }

  /** The front of a permutation of `s` is one of the orders of `s`. */
  lemma FrontComesFrom(s: seq<Order>, t: seq<Order>) returns (i: nat)
    requires multiset(t) == multiset(s) && |t| > 0
    ensures i < |s| && s[i] == t[0]
  {
    assert t[0] in multiset(s);
    i :| 0 <= i < |s| && s[i] == t[0];
  }

  lemma BestBidIsHighest(s: seq<Order>, t: seq<Order>, i: nat)
    requires multiset(t) == multiset(s) && BidsOrdered(t) && i < |s|
    ensures |t| > 0 && t[0].price >= s[i].price
  {
    assert s[i] in multiset(t);
    var k :| 0 <= k < |t| && t[k] == s[i];
  }

  lemma BestAskIsLowest(s: seq<Order>, t: seq<Order>, i: nat)
    requires multiset(t) == multiset(s) && AsksOrdered(t) && i < |s|
    ensures |t| > 0 && t[0].price <= s[i].price
  {
    assert s[i] in multiset(t);
    var k :| 0 <= k < |t| && t[k] == s[i];
  }

  /** The shares traded by a pass: its fill's quantity, or nothing. */
  function Traded(p: Pass): real {
    if p.fill.Some? then p.fill.value.quantity else 0.0
  }

  /**
    Quantity conservation over a whole pass: whatever was traded leaves each
    side once and is added to the volume.
  */
  lemma MatchOnceConservesShares(b: Book, stock: Stock, symbol: string, txId: string, now: int)
    ensures var r := MatchOnce(b, stock, symbol, txId, now);
      && Total(r.book.buy) + Total(r.book.sell) == Total(b.buy) + Total(b.sell) - 2.0 * Traded(r)
      && r.stock.volume == stock.volume + Traded(r)
  {
  }

  /** The fills a pass contributes to the transaction log. */
  function FillLog(p: Option<Pass>): seq<Transaction> {
    if p.Some? && p.value.fill.Some? then [p.value.fill.value] else []
  }

  /**
    What `processOrders` does to one symbol, read off the state it started
    from: nothing at all for a book whose symbol has no stock (line 226).
  */
  function SymbolPass(m: Market, symbol: string, freshId: string -> string, now: int): Option<Pass>
    requires symbol in m.books
  {
    if symbol in m.stocks then
      Some(MatchOnce(m.books[symbol], m.stocks[symbol], symbol, freshId(symbol), now))
    else None
  }

  /** A symbol's pass logs at most one fill, and that fill names the symbol. */
  lemma SymbolPassFill(m: Market, symbol: string, freshId: string -> string, now: int)
    requires symbol in m.books
    ensures var log := FillLog(SymbolPass(m, symbol, freshId, now));
      |log| <= 1 && forall t :: t in log ==> t.symbol == symbol
  {
  }

  /** Writes one symbol's pass back into the market. */
  function Commit(m: Market, symbol: string, p: Option<Pass>): Market {
    match p
    case None => m
    case Some(pass) =>
      m.(books := m.books[symbol := pass.book],
         stocks := m.stocks[symbol := pass.stock],
         transactions := m.transactions + FillLog(p))
  }

  /** The fills of all `syms`, each computed from the state `m` itself. */
  function NewFills(m: Market, syms: seq<string>, freshId: string -> string, now: int): seq<Transaction>
    requires forall s :: s in syms ==> s in m.books
  {
    if |syms| == 0 then []
    else FillLog(SymbolPass(m, syms[0], freshId, now)) + NewFills(m, syms[1..], freshId, now)
  }

  lemma {:induction false} NewFillsFrame(m: Market, m': Market, syms: seq<string>, freshId: string -> string, now: int)
    requires forall s :: s in syms ==> s in m.books && s in m'.books
    requires forall s :: s in syms ==> SymbolPass(m, s, freshId, now) == SymbolPass(m', s, freshId, now)
    ensures NewFills(m, syms, freshId, now) == NewFills(m', syms, freshId, now)
    decreases |syms|
  {
    if |syms| > 0 {
      NewFillsFrame(m, m', syms[1..], freshId, now);
    }
  }

  lemma ConcatAssoc(a: seq<Transaction>, b: seq<Transaction>, c: seq<Transaction>)
    ensures a + b + c == a + (b + c)
  {
  }

  /** Dropping the head of a duplicate-free list leaves one without it. */
  lemma DistinctTail(syms: seq<string>)
    requires |syms| > 0 && Distinct(syms)
    ensures Distinct(syms[1..])
    ensures forall s :: s in syms[1..] ==> s != syms[0]
  {
    forall i, j | 0 <= i < j < |syms[1..]| ensures syms[1..][i] != syms[1..][j] {
      assert syms[1..][i] == syms[i + 1] && syms[1..][j] == syms[j + 1];
    }
    forall s | s in syms[1..] ensures s != syms[0] {
      var j :| 0 <= j < |syms[1..]| && syms[1..][j] == s;
      assert syms[j + 1] == s;
    }
  }

  /**
    The `forEach` over the symbols. Processing one symbol never touches
    another symbol's book or stock, so the sequential fold appends exactly
    the fills of every symbol's pass computed from the starting state (and
    `ProcessSymbolsPasses` says the same of the books and stocks).
  */
  function ProcessSymbols(m: Market, syms: seq<string>, freshId: string -> string, now: int): (r: Market)
    requires forall s :: s in syms ==> s in m.books
    requires Distinct(syms)
    ensures r.books.Keys == m.books.Keys && r.stocks.Keys == m.stocks.Keys
    ensures r.bookKeys == m.bookKeys && r.lastPrices == m.lastPrices && r.params == m.params
    ensures r.transactions == m.transactions + NewFills(m, syms, freshId, now)
    decreases |syms|
  {
    if |syms| == 0 then m
    else
      var m1 := Commit(m, syms[0], SymbolPass(m, syms[0], freshId, now));
      CommitStep(m, syms, freshId, now);
      ProcessSymbols(m1, syms[1..], freshId, now)
  }

  /** One step of the fold: the first symbol's pass is committed and the rest is unaffected. */
  lemma CommitStep(m: Market, syms: seq<string>, freshId: string -> string, now: int)
    requires |syms| > 0
    requires forall s :: s in syms ==> s in m.books
    requires Distinct(syms)
    ensures var m1 := Commit(m, syms[0], SymbolPass(m, syms[0], freshId, now));
      && m1.books.Keys == m.books.Keys && m1.stocks.Keys == m.stocks.Keys
      && m1.bookKeys == m.bookKeys && m1.lastPrices == m.lastPrices && m1.params == m.params
      && Distinct(syms[1..])
      && (forall s :: s in syms[1..] ==> s in m1.books)
      && m1.transactions + NewFills(m1, syms[1..], freshId, now) == m.transactions + NewFills(m, syms, freshId, now)
  {
    var s0 := syms[0];
    var p := SymbolPass(m, s0, freshId, now);
    var m1 := Commit(m, s0, p);
    DistinctTail(syms);
    CommitFrame(m, s0, p, syms[1..], freshId, now);
    var head := FillLog(p);
    assert m1.transactions == m.transactions + head;
    ConcatAssoc(m.transactions, head, NewFills(m, syms[1..], freshId, now));
  }

  /** Committing one symbol's pass changes no other symbol's pass or fills. */
  lemma CommitFrame(m: Market, s0: string, p: Option<Pass>, rest: seq<string>, freshId: string -> string, now: int)
    requires s0 in m.books && (p.Some? ==> s0 in m.stocks)
    requires forall s :: s in rest ==> s in m.books && s != s0
    ensures var m1 := Commit(m, s0, p);
      && m1.books.Keys == m.books.Keys && m1.stocks.Keys == m.stocks.Keys
      && NewFills(m1, rest, freshId, now) == NewFills(m, rest, freshId, now)
  {
    var m1 := Commit(m, s0, p);
    forall s | s in rest ensures SymbolPass(m1, s, freshId, now) == SymbolPass(m, s, freshId, now) {
      assert m1.books[s] == m.books[s];
      assert s in m1.stocks <==> s in m.stocks;
      if s in m.stocks {
        assert m1.stocks[s] == m.stocks[s];
      }
    }
    NewFillsFrame(m1, m, rest, freshId, now);
  }

  /** A symbol outside `syms` keeps its book and its stock. */
  lemma {:induction false} ProcessSymbolsFrame(m: Market, syms: seq<string>, freshId: string -> string, now: int, s: string)
    requires forall s :: s in syms ==> s in m.books
    requires Distinct(syms)
    requires s !in syms
    ensures var r := ProcessSymbols(m, syms, freshId, now);
      && (s in m.books ==> r.books[s] == m.books[s])
      && (s in m.stocks ==> r.stocks[s] == m.stocks[s])
    decreases |syms|
  {
    if |syms| > 0 {
      var m1 := Commit(m, syms[0], SymbolPass(m, syms[0], freshId, now));
      DistinctTail(syms);
      assert s !in syms[1..];
      ProcessSymbolsFrame(m1, syms[1..], freshId, now, s);
    }
  }

  /** A symbol in `syms` ends with the book and stock of its own pass over the starting state. */
  lemma {:induction false} ProcessSymbolsPass(m: Market, syms: seq<string>, freshId: string -> string, now: int, s: string)
    requires forall s :: s in syms ==> s in m.books
    requires Distinct(syms)
    requires s in syms
    ensures var r := ProcessSymbols(m, syms, freshId, now);
      match SymbolPass(m, s, freshId, now)
      case None => r.books[s] == m.books[s]
      case Some(p) => r.books[s] == p.book && r.stocks[s] == p.stock
    decreases |syms|
  {
    var m1 := Commit(m, syms[0], SymbolPass(m, syms[0], freshId, now));
    DistinctTail(syms);
    if s == syms[0] {
      ProcessSymbolsFrame(m1, syms[1..], freshId, now, s);
    } else {
      assert s in syms[1..];
      assert SymbolPass(m1, s, freshId, now) == SymbolPass(m, s, freshId, now);
      ProcessSymbolsPass(m1, syms[1..], freshId, now, s);
    }
  }

  /** `ProcessSymbolsFrame` and `ProcessSymbolsPass` for every symbol at once. */
  lemma ProcessSymbolsAll(m: Market, syms: seq<string>, freshId: string -> string, now: int)
    requires forall s :: s in syms ==> s in m.books
    requires Distinct(syms)
    ensures var r := ProcessSymbols(m, syms, freshId, now);
      && (forall s :: s in m.stocks && s !in syms ==> r.stocks[s] == m.stocks[s])
      && (forall s :: s in syms ==>
            match SymbolPass(m, s, freshId, now)
            case None => r.books[s] == m.books[s]
            case Some(p) => r.books[s] == p.book && r.stocks[s] == p.stock)
  {
    forall s | s in m.stocks && s !in syms
      ensures ProcessSymbols(m, syms, freshId, now).stocks[s] == m.stocks[s]
    {
      ProcessSymbolsFrame(m, syms, freshId, now, s);
    }
    forall s | s in syms
      ensures var r := ProcessSymbols(m, syms, freshId, now);
        match SymbolPass(m, s, freshId, now)
        case None => r.books[s] == m.books[s]
        case Some(p) => r.books[s] == p.book && r.stocks[s] == p.stock
    {
      ProcessSymbolsPass(m, syms, freshId, now, s);
    }
  }

  /**
    `processOrders` (marketSimulator.js lines 221-297): one pass over every
    book in key order. It returns nothing in the source; here it returns the
    new market state.
  */
  function ProcessOrders(m: Market, freshId: string -> string, now: int): (r: Market)
    requires KeysEnumerate(m.bookKeys, m.books.Keys)
    ensures ValidMarket(m) ==> ValidMarket(r)
    ensures r.books.Keys == m.books.Keys && r.stocks.Keys == m.stocks.Keys
    ensures r.bookKeys == m.bookKeys && r.lastPrices == m.lastPrices && r.params == m.params
    ensures r.transactions == m.transactions + NewFills(m, m.bookKeys, freshId, now)
    ensures forall s :: s in m.stocks && s !in m.books ==> r.stocks[s] == m.stocks[s]
    ensures forall s :: s in m.books ==>
      match SymbolPass(m, s, freshId, now)
      case None => r.books[s] == m.books[s]
      case Some(p) => r.books[s] == p.book && r.stocks[s] == p.stock
  {
    ProcessSymbolsAll(m, m.bookKeys, freshId, now);
    ProcessSymbols(m, m.bookKeys, freshId, now)
  }

  /** Every fill of a pass names the symbol whose book produced it. */
  lemma {:induction false} NewFillsSymbols(m: Market, syms: seq<string>, freshId: string -> string, now: int)
    requires forall s :: s in syms ==> s in m.books
    ensures |NewFills(m, syms, freshId, now)| <= |syms|
    ensures forall t :: t in NewFills(m, syms, freshId, now) ==> t.symbol in syms
    decreases |syms|
  {
    if |syms| > 0 {
      NewFillsSymbols(m, syms[1..], freshId, now);
    }
  }

  /**
    At most one trade per symbol per pass: the trades appended by one call of
    `processOrders` belong to pairwise different symbols.
  */
  lemma {:induction false} OneTradePerSymbol(m: Market, syms: seq<string>, freshId: string -> string, now: int)
    requires forall s :: s in syms ==> s in m.books
    requires Distinct(syms)
    ensures DistinctSymbols(NewFills(m, syms, freshId, now))
    decreases |syms|
  {
    if |syms| > 0 {
      var head := FillLog(SymbolPass(m, syms[0], freshId, now));
      var tail := NewFills(m, syms[1..], freshId, now);
      DistinctTail(syms);
      SymbolPassFill(m, syms[0], freshId, now);
      OneTradePerSymbol(m, syms[1..], freshId, now);
      NewFillsSymbols(m, syms[1..], freshId, now);
      forall t | t in tail ensures t.symbol != syms[0] {
        assert t.symbol in syms[1..];
      }
      DistinctSymbolsCons(head, tail, syms[0]);
    }
  }

  /** The trades of `ts` belong to pairwise different symbols. */
  ghost predicate DistinctSymbols(ts: seq<Transaction>) {
    forall i, j :: 0 <= i < j < |ts| ==> ts[i].symbol != ts[j].symbol
  }

  lemma DistinctSymbolsCons(head: seq<Transaction>, tail: seq<Transaction>, s: string)
    requires |head| <= 1 && forall t :: t in head ==> t.symbol == s
    requires forall t :: t in tail ==> t.symbol != s
    requires DistinctSymbols(tail)
    ensures DistinctSymbols(head + tail)
  {
    var fills := head + tail;
    forall i, j | 0 <= i < j < |fills| ensures fills[i].symbol != fills[j].symbol {
      assert fills[j] == tail[j - |head|];
      if i >= |head| {
        assert fills[i] == tail[i - |head|];
      } else {
        assert fills[i] in head;
        assert fills[j] in tail;
      }
    }
  }

  /** The shares traded by a list of trades. */
  function SumTraded(ts: seq<Transaction>): real {
    if |ts| == 0 then 0.0 else ts[0].quantity + SumTraded(ts[1..])
  }

  /** The outcome of crossing a book until it no longer crosses. */
  datatype Drain = Drain(book: Book, stock: Stock, fills: seq<Transaction>)

  /**
    What the `while` loop of `processOrders` evidently means to do: keep
    crossing the top of book until it no longer crosses. `freshId(n)` names
    the n-th trade of the pass.
  */
  function MatchAll(b: Book, stock: Stock, symbol: string, freshId: nat -> string, n: nat, now: int): (r: Drain)
    requires BookOrdered(b)
    ensures BookOrdered(r.book) && !Crossed(r.book)
    ensures r.stock == stock.(price := r.stock.price, volume := stock.volume + SumTraded(r.fills))
    ensures |r.fills| == 0 ==> r.stock == stock && r.book == b
    ensures |r.fills| > 0 ==> r.stock.price == r.fills[|r.fills| - 1].price
    ensures Total(r.book.buy) == Total(b.buy) - SumTraded(r.fills)
    ensures Total(r.book.sell) == Total(b.sell) - SumTraded(r.fills)
    ensures |r.fills| + |r.book.buy| + |r.book.sell| <= |b.buy| + |b.sell|
    ensures forall t :: t in r.fills ==> t.symbol == symbol
    decreases |b.buy| + |b.sell|
  {
    if Crossed(b) then
      var p := Fill(b, stock, symbol, freshId(n), now);
      var rest := MatchAll(p.book, p.stock, symbol, freshId, n + 1, now);
      var fills := [p.fill.value] + rest.fills;
      assert fills[1..] == rest.fills;
      Drain(rest.book, rest.stock, fills)
    else Drain(b, stock, [])
  }

  /** The evidently intended pass for one symbol: sort, then drain the crossing. */
  function MatchSymbol(b: Book, stock: Stock, symbol: string, freshId: nat -> string, now: int): (r: Drain)
    ensures BookOrdered(r.book) && !Crossed(r.book)
    ensures r.stock.volume == stock.volume + SumTraded(r.fills)
    ensures |r.fills| > 0 <==> SomePairCrosses(b)
  {
    var sorted := SortBook(b);
    MatchOnceTradesIffSomePairCrosses(b, stock, symbol, freshId(0), now);
    MatchAll(sorted, stock, symbol, freshId, 0, now)
  }

  /**
    The pass as written can leave a book crossed: a bid of 10 at 101 against
    asks of 6 at 99 and 4 at 100 trades 6 once and stops, although the
    remaining bid of 4 at 101 still crosses the ask at 100.
  */
  lemma OnePassLeavesBookCrossed(stock: Stock)
    ensures var b := Book([Order("b", "u1", "AAPL", 10.0, 101.0, Buy, Active, 0)],
                          [Order("s1", "u2", "AAPL", 6.0, 99.0, Sell, Active, 0),
                           Order("s2", "u3", "AAPL", 4.0, 100.0, Sell, Active, 0)]);
      var r := MatchOnce(b, stock, "AAPL", "t1", 0);
      && r.fill.Some? && r.fill.value.quantity == 6.0 && r.fill.value.price == 100.0
      && Crossed(r.book)
  {
    var bid := Order("b", "u1", "AAPL", 10.0, 101.0, Buy, Active, 0);
    var a1 := Order("s1", "u2", "AAPL", 6.0, 99.0, Sell, Active, 0);
    var a2 := Order("s2", "u3", "AAPL", 4.0, 100.0, Sell, Active, 0);
    var b := Book([bid], [a1, a2]);
    assert Sort([bid], BuyRank) == [bid];
    assert Sort([a2], SellRank) == [a2];
    assert [a1, a2][1..] == [a2];
    assert Sort([a1, a2], SellRank) == Insert(a1, [a2], SellRank) == [a1, a2];
    assert SortBook(b) == b;
  }
}

=== FILE: pricing.dfy ===
/**
  The bookkeeping of the pricing tick (`updateStockPrices`,
  marketSimulator.js lines 144-218). The five-factor sum is random and
  float-heavy; it enters here as the parameter `factor`, so every fact below
  holds whatever that sum is.
*/
module Pricing {
  import opened Wrappers
  import opened MarketState

  /** Capacity of each symbol's price history. */
  const HistoryCapacity := 100

  /** Lowest price the floor of line 197 lifts to. */
  const PriceFloor: real := 0.01

  /** Line 194: the price the combined factor asks for, before any bound. */
  function RawPrice(prev: real, factor: real): real {
    prev * (1.0 + factor)
  }

  /**
    Lines 197-198: `max(raw, prev * 0.9, 0.01)`, then capped at `prev * 1.1`.
  */
  function ClampPrice(prev: real, raw: real): (r: real)
    // for a positive price: within 10% either way, and still positive
    ensures prev > 0.0 ==> 0.9 * prev <= r <= 1.1 * prev && r > 0.0
    // the floor only holds when the cap allows it
    ensures prev > 0.0 ==> (r >= PriceFloor <==> 1.1 * prev >= PriceFloor)
    // a move that is already within bounds is kept as it is
    ensures PriceFloor <= raw && 0.9 * prev <= raw <= 1.1 * prev ==> r == raw
    // otherwise the price lands on a bound
    ensures r == raw || r == 0.9 * prev || r == PriceFloor || r == 1.1 * prev
    // a rise past the band stops at the cap
    ensures prev > 0.0 && raw > 1.1 * prev ==> r == 1.1 * prev
    // a fall below the band or the floor stops at the higher of the two, unless the cap is lower still
    ensures prev > 0.0 && raw < Max(0.9 * prev, PriceFloor) ==>
      r == Min(Max(0.9 * prev, PriceFloor), 1.1 * prev)
    // a non-positive price is scaled by 1.1 (the cap wins over the floor)
    ensures prev <= 0.0 ==> r == 1.1 * prev
  {
    Min(Max(Max(raw, prev * 0.9), PriceFloor), prev * 1.1)
  }

  /** Lines 209-212: append, then drop the oldest entry once past capacity. */
  function PushHistory(h: seq<real>, p: real): (r: seq<real>)
    ensures |r| > 0 && r[|r| - 1] == p
    ensures |r| == if |h| < HistoryCapacity then |h| + 1 else |h|
    ensures |h| <= HistoryCapacity ==> |r| <= HistoryCapacity
    // the history is a window onto everything pushed so far
    ensures r == (h + [p])[|h| + 1 - |r|..]
  {
    var pushed := h + [p];
    if |pushed| > HistoryCapacity then pushed[1..] else pushed
  }

  /** `changePercent` of line 203; a zero previous close gives Infinity or NaN. */
  function PercentChange(change: real, previousClose: real): (r: Num)
    ensures previousClose == 0.0 <==> r.NonFinite?
    ensures r.Finite? ==> r.value * previousClose == change * 100.0
  {
    if previousClose == 0.0 then NonFinite else Finite(change / previousClose * 100.0)
  }

  datatype Ticked = Ticked(stock: Stock, history: seq<real>)

  /** One stock's tick, lines 193-212. */
  function TickStock(s: Stock, history: seq<real>, factor: real, now: int): (r: Ticked)
    ensures r.stock.price == ClampPrice(s.price, RawPrice(s.price, factor))
    ensures r.stock.change == r.stock.price - s.previousClose
    ensures r.stock.changePercent == PercentChange(r.stock.change, s.previousClose)
    ensures r.stock.high >= s.high && r.stock.low <= s.low
    ensures r.stock.low <= r.stock.price <= r.stock.high
    ensures r.stock.high == s.high || r.stock.high == r.stock.price
    ensures r.stock.low == s.low || r.stock.low == r.stock.price
    ensures r.stock.lastUpdated == now
    // the identity, open, previous close and volume are left alone
    ensures r.stock.symbol == s.symbol && r.stock.name == s.name
    ensures r.stock.open == s.open && r.stock.previousClose == s.previousClose
    ensures r.stock.volume == s.volume
    ensures r.history == PushHistory(history, r.stock.price)
  {
    var p := ClampPrice(s.price, RawPrice(s.price, factor));
    var change := p - s.previousClose;
    Ticked(
      s.(price := p,
         change := change,
         changePercent := PercentChange(change, s.previousClose),
         high := Max(s.high, p),
         low := Min(s.low, p),
         lastUpdated := now),
      PushHistory(history, p))
  }

  /**
    The order-book imbalance of lines 172-178 from the two side lengths:
    `(buys - sells) / (buys + sells)`, or 0 for an empty book.
  */
  function OrderImbalance(buys: nat, sells: nat): (r: real)
    ensures -1.0 <= r <= 1.0
    ensures r > 0.0 <==> buys > sells
    ensures r < 0.0 <==> buys < sells
    ensures r == 0.0 <==> buys == sells
    ensures buys + sells > 0 ==> r * (buys + sells) as real == (buys as real) - (sells as real)
  {
    if buys + sells > 0 then ((buys as real) - (sells as real)) / ((buys + sells) as real) else 0.0
  }

  /** The imbalance the tick reads for `symbol`; a missing book counts as empty. */
  function BookImbalance(books: map<string, Book>, symbol: string): (r: real)
    ensures -1.0 <= r <= 1.0
    ensures symbol !in books ==> r == 0.0
    ensures symbol in books ==> r == OrderImbalance(|books[symbol].buy|, |books[symbol].sell|)
  {
    if symbol in books then OrderImbalance(|books[symbol].buy|, |books[symbol].sell|) else 0.0
  }

  /** Lines 216-217: a random step of the sentiment, clamped into [-1, 1]. */
  function NextSentiment(sentiment: real, draw: real, rate: real): (r: real)
    ensures -1.0 <= r <= 1.0
    ensures var moved := sentiment + (draw - 0.5) * rate;
      && (-1.0 <= moved <= 1.0 ==> r == moved)
      && (moved > 1.0 ==> r == 1.0)
      && (moved < -1.0 ==> r == -1.0)
  {
    Max(-1.0, Min(1.0, sentiment + (draw - 0.5) * rate))
  }

  /**
    `updateStockPrices`: every stock ticks on its own combined factor
    `factor(symbol)`, then the sentiment moves by `draw`. Books and trades are
    not touched.
  */
  function UpdateStockPrices(m: Market, factor: string -> real, draw: real, now: int): (r: Market)
    requires ValidMarket(m)
    ensures ValidMarket(r)
    ensures r.stocks.Keys == m.stocks.Keys && r.lastPrices.Keys == m.lastPrices.Keys
    ensures r.books == m.books && r.bookKeys == m.bookKeys && r.transactions == m.transactions
    ensures forall s :: s in m.stocks ==>
      && r.stocks[s] == TickStock(m.stocks[s], m.lastPrices[s], factor(s), now).stock
      && r.lastPrices[s] == TickStock(m.stocks[s], m.lastPrices[s], factor(s), now).history
    ensures forall s :: s in m.lastPrices && s !in m.stocks ==> r.lastPrices[s] == m.lastPrices[s]
    ensures r.params == m.params.(marketSentiment := r.params.marketSentiment)
    ensures r.params.marketSentiment ==
      NextSentiment(m.params.marketSentiment, draw, m.params.sentimentChangeRate)
    ensures -1.0 <= r.params.marketSentiment <= 1.0
  {
    var ticks := TickAll(m, factor, now);
    var stocks := map s | s in ticks :: ticks[s].stock;
    var histories := map s | s in m.lastPrices :: if s in ticks then ticks[s].history else m.lastPrices[s];
    var sentiment := NextSentiment(m.params.marketSentiment, draw, m.params.sentimentChangeRate);
    m.(stocks := stocks, lastPrices := histories, params := m.params.(marketSentiment := sentiment))
  }

  /** The tick of every stock, each on its own factor and history. */
  function TickAll(m: Market, factor: string -> real, now: int): (r: map<string, Ticked>)
    requires m.stocks.Keys <= m.lastPrices.Keys
    ensures r.Keys == m.stocks.Keys
    ensures forall s :: s in r ==> r[s] == TickStock(m.stocks[s], m.lastPrices[s], factor(s), now)
  {
    map s | s in m.stocks :: TickStock(m.stocks[s], m.lastPrices[s], factor(s), now)
  }

  /** Every stock has a positive price. */
  ghost predicate PricesPositive(m: Market) {
    forall s :: s in m.stocks ==> m.stocks[s].price > 0.0
  }

  /** Every stock's price history holds at most `HistoryCapacity` entries. */
  ghost predicate HistoriesBounded(m: Market) {
    forall s :: s in m.lastPrices ==> |m.lastPrices[s]| <= HistoryCapacity
  }

  /**
    A tick keeps every price positive and within 10% of where it was, keeps
    every history within capacity and ending in the stock's new price.
  */
  lemma TickKeepsMarketBounded(m: Market, factor: string -> real, draw: real, now: int)
    requires ValidMarket(m) && PricesPositive(m) && HistoriesBounded(m)
    ensures var r := UpdateStockPrices(m, factor, draw, now);
      && PricesPositive(r) && HistoriesBounded(r)
      && (forall s :: s in m.stocks ==>
            0.9 * m.stocks[s].price <= r.stocks[s].price <= 1.1 * m.stocks[s].price)
      && (forall s :: s in m.stocks ==>
            var h := r.lastPrices[s]; |h| > 0 && h[|h| - 1] == r.stocks[s].price)
  {
  }

  /** The sentiment after a run of ticks with the given draws. */
  function SentimentAfter(sentiment: real, draws: seq<real>, rate: real): real
    decreases |draws|
  {
    if |draws| == 0 then sentiment
    else SentimentAfter(NextSentiment(sentiment, draws[0], rate), draws[1..], rate)
  }

  /** The sentiment stays in [-1, 1] over any number of ticks that starts there. */
  lemma {:induction false} SentimentStaysBounded(sentiment: real, draws: seq<real>, rate: real)
    requires -1.0 <= sentiment <= 1.0
    ensures -1.0 <= SentimentAfter(sentiment, draws, rate) <= 1.0
    decreases |draws|
  {
    if |draws| > 0 {
      SentimentStaysBounded(NextSentiment(sentiment, draws[0], rate), draws[1..], rate);
    }
  }
}

=== FILE: stable_sort.dfy ===
/**
  A stable sort of a sequence by a real-valued rank, smallest rank first.
  JavaScript's `Array.prototype.sort` is stable (ECMAScript 2019 onwards), so
  `xs.sort((a, b) => key(a) - key(b))` is `Sort(xs, key)` and
  `xs.sort((a, b) => key(b) - key(a))` is `Sort(xs, x => -key(x))`.
*/
module StableSort {

  /** `s` is ordered by `rank`, smallest first. */
  ghost predicate SortedBy<T>(s: seq<T>, rank: T -> real) {
    forall i, j :: 0 <= i < j < |s| ==> rank(s[i]) <= rank(s[j])
  }

  /** `s` is ordered by `rank` with no two elements of equal rank. */
  ghost predicate StrictlySortedBy<T>(s: seq<T>, rank: T -> real) {
    forall i, j :: 0 <= i < j < |s| ==> rank(s[i]) < rank(s[j])
  }

  /** No two elements of `s` have the same rank. */
  ghost predicate DistinctRanks<T>(s: seq<T>, rank: T -> real) {
    forall i, j :: 0 <= i < j < |s| ==> rank(s[i]) != rank(s[j])
  }

  /** The elements of `s` whose rank is `k`, in their order in `s`. */
  function WithRank<T>(s: seq<T>, rank: T -> real, k: real): seq<T>
  {
    if |s| == 0 then []
    else (if rank(s[0]) == k then [s[0]] else []) + WithRank(s[1..], rank, k)
  }

  /** Puts `x` in front of every element whose rank is not smaller than its own. */
  function Insert<T>(x: T, s: seq<T>, rank: T -> real): (r: seq<T>)
    ensures multiset(r) == multiset(s) + multiset{x}
  {
    if |s| == 0 || rank(x) <= rank(s[0]) then [x] + s
    else
      assert s == [s[0]] + s[1..];
      [s[0]] + Insert(x, s[1..], rank)
  }

  /** Insertion sort, inserting the head of `s` into the sorted tail. */
  function Sort<T>(s: seq<T>, rank: T -> real): (r: seq<T>)
    ensures multiset(r) == multiset(s)
  {
    if |s| == 0 then []
    else
      assert s == [s[0]] + s[1..];
      Insert(s[0], Sort(s[1..], rank), rank)
  }

  lemma {:induction false} WithRankAppend<T>(a: seq<T>, b: seq<T>, rank: T -> real, k: real)
    ensures WithRank(a + b, rank, k) == WithRank(a, rank, k) + WithRank(b, rank, k)
    decreases |a|
  {
    if |a| == 0 {
      assert a + b == b;
    } else {
      var ab := a + b;
      assert ab[0] == a[0];
      assert ab[1..] == a[1..] + b;
      WithRankAppend(a[1..], b, rank, k);
      var h: seq<T> := if rank(a[0]) == k then [a[0]] else [];
      assert WithRank(ab, rank, k) == h + WithRank(a[1..] + b, rank, k);
      assert WithRank(a, rank, k) == h + WithRank(a[1..], rank, k);
    }
  }

  /** The head of `Insert(x, s)` is `x` or the head of `s`. */
  lemma InsertFront<T>(x: T, s: seq<T>, rank: T -> real)
    ensures var r := Insert(x, s, rank);
      |r| > 0 && (r[0] == x || (|s| > 0 && r[0] == s[0]))
  {
  }

  /** `[h] + t` is sorted when `t` is and `h` ranks no higher than the head of `t`. */
  lemma ConsSorted<T>(h: T, t: seq<T>, rank: T -> real)
    requires SortedBy(t, rank)
    requires |t| > 0 ==> rank(h) <= rank(t[0])
    ensures SortedBy([h] + t, rank)
  {
    var r := [h] + t;
    forall i, j | 0 <= i < j < |r|
      ensures rank(r[i]) <= rank(r[j])
    {
      assert r[j] == t[j - 1];
      if i > 0 {
        assert r[i] == t[i - 1];
      } else if j > 1 {
        assert rank(t[0]) <= rank(t[j - 1]);
      }
    }
  }

  /** `[h] + t` is strictly sorted when `t` is and `h` ranks below the head of `t`. */
  lemma ConsStrict<T>(h: T, t: seq<T>, rank: T -> real)
    requires StrictlySortedBy(t, rank)
    requires |t| > 0 ==> rank(h) < rank(t[0])
    ensures StrictlySortedBy([h] + t, rank)
  {
    var r := [h] + t;
    forall i, j | 0 <= i < j < |r|
      ensures rank(r[i]) < rank(r[j])
    {
      assert r[j] == t[j - 1];
      if i > 0 {
        assert r[i] == t[i - 1];
      } else if j > 1 {
        assert rank(t[0]) < rank(t[j - 1]);
      }
    }
  }

  lemma {:induction false} InsertSorted<T>(x: T, s: seq<T>, rank: T -> real)
    requires SortedBy(s, rank)
    ensures SortedBy(Insert(x, s, rank), rank)
    decreases |s|
  {
    if |s| == 0 || rank(x) <= rank(s[0]) {
      ConsSorted(x, s, rank);
    } else {
      var t := Insert(x, s[1..], rank);
      assert SortedBy(s[1..], rank) by {
        forall i, j | 0 <= i < j < |s[1..]| ensures rank(s[1..][i]) <= rank(s[1..][j]) {
          assert s[1..][i] == s[i + 1] && s[1..][j] == s[j + 1];
        }
      }
      InsertSorted(x, s[1..], rank);
      InsertFront(x, s[1..], rank);
      if t[0] != x {
        assert t[0] == s[1];
        assert rank(s[0]) <= rank(s[1]);
      }
      ConsSorted(s[0], t, rank);
    }
  }

  /** The result of `Sort` is ordered by rank. */
  lemma {:induction false} SortSorted<T>(s: seq<T>, rank: T -> real)
    ensures SortedBy(Sort(s, rank), rank)
    decreases |s|
  {
    if |s| > 0 {
      SortSorted(s[1..], rank);
      InsertSorted(s[0], Sort(s[1..], rank), rank);
    }
  }

  lemma {:induction false} InsertStable<T>(x: T, s: seq<T>, rank: T -> real, k: real)
    ensures WithRank(Insert(x, s, rank), rank, k) == WithRank([x] + s, rank, k)
    decreases |s|
  {
    if |s| == 0 || rank(x) <= rank(s[0]) {
    } else {
      var s' := s[1..];
      calc {
        WithRank(Insert(x, s, rank), rank, k);
        WithRank([s[0]] + Insert(x, s', rank), rank, k);
        { WithRankAppend([s[0]], Insert(x, s', rank), rank, k); }
        WithRank([s[0]], rank, k) + WithRank(Insert(x, s', rank), rank, k);
        { InsertStable(x, s', rank, k); }
        WithRank([s[0]], rank, k) + WithRank([x] + s', rank, k);
        { WithRankAppend([x], s', rank, k); }
        WithRank([s[0]], rank, k) + WithRank([x], rank, k) + WithRank(s', rank, k);
        // s[0] and x have different ranks, so at most one of them is kept
        WithRank([x], rank, k) + WithRank([s[0]], rank, k) + WithRank(s', rank, k);
        { WithRankAppend([s[0]], s', rank, k); assert [s[0]] + s' == s; }
        WithRank([x], rank, k) + WithRank(s, rank, k);
        { WithRankAppend([x], s, rank, k); }
        WithRank([x] + s, rank, k);
      }
    }
  }

  /** `Sort` is stable: the elements of each rank keep their relative order. */
  lemma {:induction false} SortStable<T>(s: seq<T>, rank: T -> real, k: real)
    ensures WithRank(Sort(s, rank), rank, k) == WithRank(s, rank, k)
    decreases |s|
  {
    if |s| > 0 {
      var t := Sort(s[1..], rank);
      var h := WithRank([s[0]], rank, k);
      calc {
        WithRank(Sort(s, rank), rank, k);
        WithRank(Insert(s[0], t, rank), rank, k);
        { InsertStable(s[0], t, rank, k); }
        WithRank([s[0]] + t, rank, k);
        { WithRankAppend([s[0]], t, rank, k); }
        h + WithRank(t, rank, k);
        { SortStable(s[1..], rank, k); }
        h + WithRank(s[1..], rank, k);
        { WithRankAppend([s[0]], s[1..], rank, k); }
        WithRank([s[0]] + s[1..], rank, k);
        { assert [s[0]] + s[1..] == s; }
        WithRank(s, rank, k);
      }
    }
  }

  /** `SortStable` for every rank at once. */
  lemma SortStableAll<T>(s: seq<T>, rank: T -> real)
    ensures forall k :: WithRank(Sort(s, rank), rank, k) == WithRank(s, rank, k)
  {
    forall k
      ensures WithRank(Sort(s, rank), rank, k) == WithRank(s, rank, k)
    {
      SortStable(s, rank, k);
    }
  }

  /** The rank of the head of a non-empty sequence selects at least that head. */
  lemma HeadRankSelected<T>(s: seq<T>, rank: T -> real)
    ensures |s| > 0 ==> WithRank(s, rank, rank(s[0])) != []
  {
  }

  /** A non-empty selection of rank `k` from a sorted sequence means its head ranks at most `k`. */
  lemma {:induction false} WithRankHead<T>(s: seq<T>, rank: T -> real, k: real)
    requires SortedBy(s, rank)
    requires WithRank(s, rank, k) != []
    ensures |s| > 0 && rank(s[0]) <= k
    decreases |s|
  {
    if rank(s[0]) != k {
      WithRankHead(s[1..], rank, k);
    }
  }

  /**
    A sorted sequence is determined by its per-rank subsequences: any two sorted
    sequences that agree on every rank are equal. With `SortSorted` and
    `SortStable` this says `Sort` is THE stable sort, whatever algorithm computes it.
  */
  lemma {:induction false} StableSortUnique<T>(a: seq<T>, b: seq<T>, rank: T -> real)
    requires SortedBy(a, rank) && SortedBy(b, rank)
    requires forall k :: WithRank(a, rank, k) == WithRank(b, rank, k)
    ensures a == b
    decreases |a| + |b|
  {
    if |a| == 0 && |b| == 0 {
    } else if |a| == 0 {
      HeadRankSelected(b, rank);
      assert false;
    } else if |b| == 0 {
      HeadRankSelected(a, rank);
      assert false;
    } else {
      var ka, kb := rank(a[0]), rank(b[0]);
      assert WithRank(a, rank, ka) != [];
      WithRankHead(b, rank, ka);
      assert WithRank(b, rank, kb) != [];
      WithRankHead(a, rank, kb);
      assert ka == kb;
      assert WithRank(a, rank, ka) == [a[0]] + WithRank(a[1..], rank, ka);
      assert WithRank(b, rank, ka) == [b[0]] + WithRank(b[1..], rank, ka);
      assert WithRank(a, rank, ka) == WithRank(b, rank, ka);
      assert ([a[0]] + WithRank(a[1..], rank, ka))[0] == ([b[0]] + WithRank(b[1..], rank, ka))[0];
      assert a[0] == b[0];
      assert WithRank(a[1..], rank, ka) == ([a[0]] + WithRank(a[1..], rank, ka))[1..];
      assert WithRank(b[1..], rank, ka) == ([b[0]] + WithRank(b[1..], rank, ka))[1..];
      forall k
        ensures WithRank(a[1..], rank, k) == WithRank(b[1..], rank, k)
      {
        assert WithRank(a, rank, k) == WithRank(b, rank, k);
        if k != ka {
          assert WithRank(a, rank, k) == WithRank(a[1..], rank, k);
          assert WithRank(b, rank, k) == WithRank(b[1..], rank, k);
        }
      }
      assert SortedBy(a[1..], rank) by {
        forall i, j | 0 <= i < j < |a[1..]| ensures rank(a[1..][i]) <= rank(a[1..][j]) {
          assert a[1..][i] == a[i + 1] && a[1..][j] == a[j + 1];
        }
      }
      assert SortedBy(b[1..], rank) by {
        forall i, j | 0 <= i < j < |b[1..]| ensures rank(b[1..][i]) <= rank(b[1..][j]) {
          assert b[1..][i] == b[i + 1] && b[1..][j] == b[j + 1];
        }
      }
      StableSortUnique(a[1..], b[1..], rank);
      assert a == [a[0]] + a[1..] && b == [b[0]] + b[1..];
    }
  }

  lemma {:induction false} InsertStrict<T>(x: T, s: seq<T>, rank: T -> real)
    requires StrictlySortedBy(s, rank)
    requires forall y :: y in s ==> rank(y) != rank(x)
    ensures StrictlySortedBy(Insert(x, s, rank), rank)
    decreases |s|
  {
    if |s| == 0 || rank(x) <= rank(s[0]) {
      if |s| > 0 {
        assert s[0] in s;
      }
      ConsStrict(x, s, rank);
    } else {
      var t := Insert(x, s[1..], rank);
      assert StrictlySortedBy(s[1..], rank) by {
        forall i, j | 0 <= i < j < |s[1..]| ensures rank(s[1..][i]) < rank(s[1..][j]) {
          assert s[1..][i] == s[i + 1] && s[1..][j] == s[j + 1];
        }
      }
      forall y | y in s[1..] ensures rank(y) != rank(x) {
        assert y in s;
      }
      InsertStrict(x, s[1..], rank);
      InsertFront(x, s[1..], rank);
      if t[0] != x {
        assert t[0] == s[1];
        assert rank(s[0]) < rank(s[1]);
      }
      ConsStrict(s[0], t, rank);
    }
  }

  /** Sorting a sequence whose ranks are pairwise distinct gives a strictly increasing sequence. */
  lemma {:induction false} SortStrict<T>(s: seq<T>, rank: T -> real)
    requires DistinctRanks(s, rank)
    ensures StrictlySortedBy(Sort(s, rank), rank)
    decreases |s|
  {
    if |s| > 0 {
      var t := Sort(s[1..], rank);
      assert DistinctRanks(s[1..], rank) by {
        forall i, j | 0 <= i < j < |s[1..]| ensures rank(s[1..][i]) != rank(s[1..][j]) {
          assert s[1..][i] == s[i + 1] && s[1..][j] == s[j + 1];
        }
      }
      SortStrict(s[1..], rank);
      forall y | y in t
        ensures rank(y) != rank(s[0])
      {
        assert y in multiset(t);
        assert y in multiset(s[1..]);
        var j :| 0 <= j < |s[1..]| && s[1..][j] == y;
        assert s[j + 1] == y;
      }
      InsertStrict(s[0], t, rank);
    }
  }

  /**
    Two strictly ordered sequences with the same elements are equal: with no
    ties there is only one way to order them.
  */
  lemma {:induction false} StrictlySortedUnique<T>(a: seq<T>, b: seq<T>, rank: T -> real)
    requires StrictlySortedBy(a, rank) && StrictlySortedBy(b, rank)
    requires multiset(a) == multiset(b)
    ensures a == b
    decreases |a|
  {
    assert |a| == |multiset(a)| == |multiset(b)| == |b|;
    if |a| > 0 {
      StrictHeadsAgree(a, b, rank);
      assert a == [a[0]] + a[1..] && b == [b[0]] + b[1..];
      assert multiset(a) == multiset{a[0]} + multiset(a[1..]);
      assert multiset(b) == multiset{a[0]} + multiset(b[1..]);
      assert multiset(a[1..]) == multiset(a) - multiset{a[0]};
      assert multiset(b[1..]) == multiset(b) - multiset{a[0]};
      StrictTail(a, rank);
      StrictTail(b, rank);
      StrictlySortedUnique(a[1..], b[1..], rank);
    }
  }

  /** Strictly ordered sequences with the same elements start with the same one. */
  lemma StrictHeadsAgree<T>(a: seq<T>, b: seq<T>, rank: T -> real)
    requires StrictlySortedBy(a, rank) && StrictlySortedBy(b, rank)
    requires multiset(a) == multiset(b) && |a| > 0 && |b| > 0
    ensures a[0] == b[0]
  {
    assert a[0] in multiset(b);
    var k :| 0 <= k < |b| && b[k] == a[0];
    assert b[0] in multiset(a);
    var j :| 0 <= j < |a| && a[j] == b[0];
    assert rank(a[0]) <= rank(a[j]);
    assert rank(b[0]) <= rank(b[k]);
    assert k == 0;
  }

  lemma StrictTail<T>(a: seq<T>, rank: T -> real)
    requires StrictlySortedBy(a, rank) && |a| > 0
    ensures StrictlySortedBy(a[1..], rank)
  {
    forall i, i' | 0 <= i < i' < |a[1..]| ensures rank(a[1..][i]) < rank(a[1..][i']) {
      assert a[1..][i] == a[i + 1] && a[1..][i'] == a[i' + 1];
    }
  }
}

=== FILE: trade_api.dfy ===
/**
  The validation chain of the trade API route (src/pages/api/trade.ts): the
  checks an incoming HTTP request passes before the route forwards the order
  to the engine's intake. The session lookup is an input; the forwarding
  call itself is left out, so a request that passes every check ends in
  `Forward` with the payload the route would send.
*/
module TradeApi {
  import opened Wrappers

  /** The destructured JSON body; `None` stands for a missing field. */
  datatype Body = Body(symbol: Option<string>, quantity: Option<real>, price: Option<real>, kind: Option<string>)

  /** What `getSession` returned: the signed-in user's id, if it has one. */
  datatype Session = Session(userId: Option<string>)

  datatype Request = Request(verb: string, session: Option<Session>, body: Option<Body>)

  /** The JSON the route posts to the intake endpoint. */
  datatype Payload = Payload(symbol: string, quantity: real, price: real, kind: string, userId: string)

  /** Either an error response or the order handed on to the intake. */
  datatype Outcome = Reject(status: int, error: string) | Forward(payload: Payload)

  const MethodNotAllowed := "Method not allowed"
  const Unauthorized := "Unauthorized"
  const MissingFields := "Missing required fields"
  const InvalidType := "Invalid order type"
  const QuantityNotPositive := "Quantity must be positive"
  const PriceNotPositive := "Price must be positive"
  const NoUserId := "User ID not found in session"
  const InternalError := "Internal server error"

  /** The checks of lines 23-37 on the body, in the order the route makes them. */
  function CheckBody(b: Body): (r: Option<string>)
    ensures r == None <==>
      && TruthyString(b.symbol) && b.kind.Some? && (b.kind.value == "buy" || b.kind.value == "sell")
      && b.quantity.Some? && b.quantity.value > 0.0 && b.price.Some? && b.price.value > 0.0
    ensures r == Some(MissingFields) <==>
      !TruthyString(b.symbol) || !TruthyNumber(b.quantity) || !TruthyNumber(b.price) || !TruthyString(b.kind)
    // every field present, but the type is neither buy nor sell
    ensures r == Some(InvalidType) <==>
      && TruthyString(b.symbol) && TruthyNumber(b.quantity) && TruthyNumber(b.price) && TruthyString(b.kind)
      && b.kind.value != "buy" && b.kind.value != "sell"
    // a well-typed body with a negative quantity, whatever the price
    ensures r == Some(QuantityNotPositive) <==>
      && TruthyString(b.symbol) && TruthyNumber(b.price) && b.kind.Some?
      && (b.kind.value == "buy" || b.kind.value == "sell")
      && b.quantity.Some? && b.quantity.value < 0.0
    // a well-typed body with a positive quantity and a negative price
    ensures r == Some(PriceNotPositive) <==>
      && TruthyString(b.symbol) && b.quantity.Some? && b.quantity.value > 0.0
      && b.kind.Some? && (b.kind.value == "buy" || b.kind.value == "sell")
      && b.price.Some? && b.price.value < 0.0
  {
    if !TruthyString(b.symbol) || !TruthyNumber(b.quantity) || !TruthyNumber(b.price) || !TruthyString(b.kind) then
      Some(MissingFields)
    else if b.kind.value != "buy" && b.kind.value != "sell" then
      Some(InvalidType)
    else if b.quantity.value <= 0.0 then
      Some(QuantityNotPositive)
    else if b.price.value <= 0.0 then
      Some(PriceNotPositive)
    else
      None
  }

  /**
    Lines 8-50: 405 for anything but POST, 401 without a session, 400 for a
    bad body or a session without a user id, 500 when the body cannot be
    destructured, and otherwise the order is forwarded.
  */
  function Handle(req: Request): (r: Outcome)
    ensures r == Reject(405, MethodNotAllowed) <==> req.verb != "POST"
    ensures r == Reject(401, Unauthorized) <==> req.verb == "POST" && req.session.None?
    ensures r == Reject(500, InternalError) <==> req.verb == "POST" && req.session.Some? && req.body.None?
    ensures r.Reject? && r.status == 400 ==> req.verb == "POST" && req.session.Some? && req.body.Some?
    ensures r.Forward? ==>
      && req.body.Some?
      && r.payload.quantity > 0.0 && r.payload.price > 0.0
      && r.payload.symbol != "" && r.payload.userId != ""
      && (r.payload.kind == "buy" || r.payload.kind == "sell")
    // zero is falsy: a zero quantity or price is reported as missing, so
    // "must be positive" is only ever said of a negative number
    // a body the checks reject is answered with 400 and that check's message
    ensures req.verb == "POST" && req.session.Some? && req.body.Some? && CheckBody(req.body.value).Some? ==>
      r == Reject(400, CheckBody(req.body.value).value)
    // the user id is looked for only once the body has passed
    ensures r == Reject(400, NoUserId) <==>
      && req.verb == "POST" && req.session.Some? && req.body.Some?
      && CheckBody(req.body.value).None? && !TruthyString(req.session.value.userId)
    ensures req.verb == "POST" && req.session.Some? && req.body.Some? ==>
      var b := req.body.value;
      && (b.quantity == Some(0.0) || b.price == Some(0.0) ==> r == Reject(400, MissingFields))
      && (r == Reject(400, QuantityNotPositive) <==>
            && TruthyString(b.symbol) && TruthyNumber(b.price)
            && b.kind.Some? && (b.kind.value == "buy" || b.kind.value == "sell")
            && b.quantity.Some? && b.quantity.value < 0.0)
      && (r == Reject(400, PriceNotPositive) <==>
            && TruthyString(b.symbol) && b.quantity.Some? && b.quantity.value > 0.0
            && b.kind.Some? && (b.kind.value == "buy" || b.kind.value == "sell")
            && b.price.Some? && b.price.value < 0.0)
  {
    if req.verb != "POST" then Reject(405, MethodNotAllowed)
    else if req.session.None? then Reject(401, Unauthorized)
    else if req.body.None? then Reject(500, InternalError)
    else
      var b := req.body.value;
      match CheckBody(b)
      case Some(e) => Reject(400, e)
      case None =>
        var uid := req.session.value.userId;
        if !TruthyString(uid) then Reject(400, NoUserId)
        else Forward(Payload(b.symbol.value, b.quantity.value, b.price.value, b.kind.value, uid.value))
  }

  /**
    A request the route accepts, stated field by field rather than as a
    chain of early returns.
  */
  ghost predicate Acceptable(req: Request) {
    && req.verb == "POST"
    && req.session.Some? && TruthyString(req.session.value.userId)
    && req.body.Some?
    && TruthyString(req.body.value.symbol)
    && req.body.value.quantity.Some? && req.body.value.quantity.value > 0.0
    && req.body.value.price.Some? && req.body.value.price.value > 0.0
    && req.body.value.kind in {Some("buy"), Some("sell")}
  }

  /**
    The route forwards exactly the acceptable requests, and it forwards the
    body's fields unchanged together with the session's user id.
  */
  lemma ForwardsExactlyAcceptable(req: Request)
    ensures Handle(req).Forward? <==> Acceptable(req)
    ensures Handle(req).Forward? ==>
      Handle(req).payload == Payload(req.body.value.symbol.value, req.body.value.quantity.value,
        req.body.value.price.value, req.body.value.kind.value, req.session.value.userId.value)
  {
    if req.verb == "POST" && req.session.Some? && req.body.Some? {
      var b := req.body.value;
      var c := CheckBody(b);
      if Acceptable(req) {
        assert b.kind.value == "buy" || b.kind.value == "sell";
        assert c == None;
      }
    }
  }
}

=== FILE: wrappers.dfy ===
/** Small value wrappers shared by the rest of the model. */
module Wrappers {

  /** A value that may be absent: a JavaScript `undefined`/`null` field, or a map miss. */
  datatype Option<+T> = None | Some(value: T)

  /** Either a value or the error the source throws or returns instead. */
  datatype Result<+T, +E> = Ok(value: T) | Err(error: E)

  /** A JavaScript number that is either finite or one of Infinity/NaN. */
  datatype Num = Finite(value: real) | NonFinite

  /** JavaScript truthiness of an optional string: present and not empty. */
  predicate TruthyString(s: Option<string>) { s.Some? && s.value != "" }

  /** JavaScript truthiness of an optional number: present and not zero. */
  predicate TruthyNumber(n: Option<real>) { n.Some? && n.value != 0.0 }

  function Min(a: real, b: real): (r: real)
    ensures r <= a && r <= b
    ensures r == a || r == b
  {
    if a <= b then a else b
  }

  function Max(a: real, b: real): (r: real)
    ensures a <= r && b <= r
    ensures r == a || r == b
  {
    if a >= b then a else b
  }
}
